=== FILE: README.md ===
# codememo core in Dafny

codememo lets a user build an annotated reference graph over code
snippets. A `Snippet` is a piece of source code with its provenance. A
`Node` wraps a snippet and may hang other nodes from a line of it
(`add_leaf`), giving a forest of call/definition trees. A
`NodeCollection` resolves the forest into edge lists (`resolve_links`,
`resolve_index_links`) and into breadth-first layers per tree plus the
orphans (`resolve_tree`). Around this engine sit the application
configuration (`check_all_keys_exist`, the section configs,
`RecentlyOpenedFilesHistory`) and the keyboard patch of the pyglet
backend. That patch keeps imgui's modifier flags and `keys_down` table
consistent across key presses and releases.

The model is pure: every operation is a function (or a short method) on
immutable values.

| file | module | what it holds |
|---|---|---|
| `wrappers.dfy` | `Wrappers` | `Option`, `Result` |
| `values.dfy` | `Values` | JSON-like values; dicts are ordered association lists |
| `snippets.dfy` | `Snippets` | `Snippet`, `n_lines`, its record and round trips |
| `forest.dfy` | `Forest` | nodes in an arena; `add_leaf` and the forest invariant |
| `links.dfy` | `Links` | `resolve_index_links`, `resolve_links`, `leaf_slot` |
| `layers.dfy` | `Layers` | `resolve_tree`: layers per tree and the orphans |
| `records.dfy` | `Records` | node records and their round trips |
| `fixture.dfy` | `Fixture` | the ten-node, two-tree test fixture and its expected answers |
| `config.dfy` | `Config` | `check_all_keys_exist`, section configs, `AppConfig` |
| `history.dfy` | `History` | `RecentlyOpenedFilesHistory` |
| `keys.dfy` | `Keys` | `_on_mods_press`, `_on_mods_release`, `on_key_press`, `on_key_release` |

Nodes live in one sequence, the arena. A node names its parent and its
children by position in that sequence. `IsForest` is the invariant every
`add_leaf` keeps:
- every position refers to a node;
- parent and child links agree;
- every recorded slot passed the range check;
- the parent chains admit a ranking, so they never loop.

The snippet, node and collection model is pinned to
`tests/test_objects.py`: the ten-node fixture and its seven `add_leaf`
calls (lines 66-91), the four `add_leaf` refusals (lines 123-146), the
record round trips (lines 94-121), and the expected links and layers
(lines 155-198).

## Model

| member | source | states |
|---|---|---|
| Forest.AddLeaf | tests/test_objects.py:123-146 | each of the four refusals (self reference, multiple root, circular reference, slot outside `1..n_lines`) happens exactly when its condition holds and the earlier ones do not; success happens exactly when all checks pass, and then the child hangs below the parent with nothing else changed |
| Forest.AddLeafKeepsForest | tests/test_objects.py:84-90 | a successful `add_leaf` on a forest yields a forest: links stay in range and agree both ways, slots stay in range, no parent chain loops |
| Forest.ReverseAttachFails | tests/test_objects.py:128-132 | after `A.add_leaf(B)` succeeds, `B.add_leaf(A)` fails, with a circular reference when A had no parent |
| Forest.SecondParentFails | tests/test_objects.py:134-138 | after `A.add_leaf(B)` succeeds, `C.add_leaf(B)` fails with a multiple-root error |
| Snippets.NLines | tests/test_objects.py:140-146 | the line count used by the range check is at least 1 and at most one more than the content length |
| Snippets.FromDictToDict | tests/test_objects.py:95-106 | reading back a snippet's record gives the same snippet, absent optional fields included |
| Snippets.ToDictFromDict | tests/test_objects.py:103-106 | a record holding only the six snippet keys that reads back successfully re-encodes to an equal dict (same keys, same values) |
| Snippets.ToDictFromDictInOrder | tests/test_objects.py:103-106 | such a record with its keys in the written order re-encodes to exactly itself |
| Records.NodeFromDictToDict | tests/test_objects.py:110-121 | reading back node i's record gives its own fields with no links, plus the leaves it lists as (child uuid, slot) pairs in attachment order |
| Records.NodeToDictFromDict | tests/test_objects.py:118-121 | an unlinked node record (null root, no leaves) holding only node keys, with a snippet record holding only snippet keys, re-encodes to an equal dict in any key order: the same keys, the same value under each, and an equal snippet record |
| Records.UnlinkedRecordRoundTrips | tests/test_objects.py:109-121 | a node without links reads back from its own record as itself with no pending leaves, and that record satisfies every assumption of `NodeToDictFromDict` |
| Records.NodeToDictFromDictInOrder | tests/test_objects.py:118-121 | such a record with its keys in the written order is reproduced exactly |
| Records.NodeToDict | tests/test_objects.py:110-116 | a node's record holds exactly the six node keys, in the written order |
| Records.NodeFromDict | tests/test_objects.py:118-121 | a non-dict is refused; a record read back gives a node without links whose own fields are those read from the record, plus the leaves the record lists |
| Snippets.ToDict | tests/test_objects.py:95-101 | a snippet's record holds exactly the six snippet keys, in the written order |
| Snippets.FromDict | tests/test_objects.py:103-106 | a non-dict is refused; a snippet read back carries under each key exactly the value the record holds there |
| Links.ResolveIndexLinks | tests/test_objects.py:171-185 | the running per-slot count loop returns the links of every node in collection order, one per leaf in attachment order, with `leaf_slot` the number of earlier siblings at the same root slot |
| Links.ResolveLinks | tests/test_objects.py:155-169 | the node links are the index links with each position replaced by its node, in the same order |
| Links.LeafSlotsRankSiblings | tests/test_objects.py:174-182 | siblings at one root slot get strictly increasing `leaf_slot`s in attachment order, all below the number of siblings at that slot |
| Links.IndexLinksInCollectionOrder | tests/test_objects.py:174-182 | links come grouped by parent, parents in collection order |
| Links.IndexLinksAreTheEdges | tests/test_objects.py:174-182 | node c is a child of node i if and only if some link goes from i to c |
| Layers.NextLayerMembers | tests/test_objects.py:190-193 | a node is in the next layer if and only if it is a child of a node of the current layer |
| Layers.TreeMembers | tests/test_objects.py:190-198 | a node is in layer k of the tree under r if and only if r tops its parent chain and the node is k parent steps below r |
| Layers.ResolveTree | tests/test_objects.py:187-198 | the orphans are exactly the nodes with neither parent nor children, in collection order; there is one tree per tree root, in collection order, each being the layers of that root |
| Layers.TreeStartsAtRoot | tests/test_objects.py:191-193 | each tree's first layer holds just its root |
| Layers.EveryNodePlaced | tests/test_objects.py:187-198 | every node is placed: an orphan is in no tree, any other node is in the tree of the top of its chain, at the layer given by its depth |
| Fixture.FixtureIsForest | tests/test_objects.py:66-91 | the ten-node fixture is what the seven `add_leaf` calls, each succeeding, build from ten fresh nodes, and it is a forest |
| Fixture.FixtureBuiltByAddLeaf | tests/test_objects.py:80-91 | starting from ten unlinked nodes, each of the seven `add_leaf` calls succeeds and the last one leaves exactly the fixture arena |
| Fixture.AttachChain | tests/test_objects.py:83-90 | any list of slot-less `add_leaf(child)` calls on a forest, each child being another node with neither parent nor children when it is attached, succeeds at every step and leaves the parent and child links the list describes, with every node's own fields unchanged |
| Forest.AttachFreshLeaf | tests/test_objects.py:84-90 | attaching a node with neither parent nor children, without a slot, to another node succeeds and keeps the forest invariant |
| Forest.IsAncestor | tests/test_objects.py:128-132 | a node found on another's parent chain lies strictly above it in the forest's ranking `RankOf`, so no node is its own ancestor |
| Forest.AncestorAboveInEveryRanking | tests/test_objects.py:128-132 | a node found on another's parent chain lies strictly above it in every ranking of the arena |
| Forest.IsAncestorMeansUp | tests/test_objects.py:128-132 | the ancestor walk finds a exactly when some number of parent steps from i reaches a |
| Fixture.FixtureIndexLinks | tests/test_objects.py:171-185 | on the fixture, `resolve_index_links` yields exactly the seven expected links, in order |
| Fixture.FixtureResolveTree | tests/test_objects.py:187-198 | on the fixture, `resolve_tree` yields the trees `[[0],[1,2],[3]]` and `[[5],[6],[7,8],[9]]` and the orphans `[4]` |
| Config.CheckAllKeysExist | codememo/config.py:8-12 | a non-dict template raises the template `TypeError`; a dict template with a non-dict target raises the target one |
| Config.CheckMeansCovers | codememo/config.py:8-20 | the check answers `True` if and only if every template key is in the target and every dict-valued template entry covers the target's value, recursively |
| Config.NestedTargetNotDict | codememo/config.py:11-18 | when all earlier entries are covered and the next dict-valued entry meets a non-dict target value, the check raises instead of answering |
| Config.CoversExtendedTarget | codememo/config.py:14-20 | keys of the target that the template lacks are ignored: adding entries to a covered target keeps it covered |
| Config.SectionFromKwargs | codememo/config.py:142-146 | each section key takes its override when given, and its default otherwise |
| Config.SectionToDict | codememo/config.py:138-140 | a section's record holds its keys in order, each with the section's value for it |
| Config.SectionKwargs | codememo/config.py:63-78 | a section entry is accepted if and only if it is absent or a mapping; an absent entry gives no overrides, a mapping gives its own entries, a refusal names the section |
| Config.AppToDict | codememo/config.py:102-106 | the application record holds the text-input and viewer sections, in that order |
| Config.SectionRoundTrip | codememo/config.py:138-162 | a section built from its own `to_dict` holds the same values |
| Config.AppConfigFromKwargs | codememo/config.py:63-78 | construction succeeds if and only if the display, text-input and viewer entries are each absent or a mapping; a bad display entry is reported first |
| Config.AppConfigRoundTrip | codememo/config.py:63-106 | `AppConfig(**c.to_dict())` rebuilds c, so its `to_dict` is the same |
| Config.AppToDictCoversItself | codememo/config.py:102-106 | checking a config's record against itself answers `True` |
| Config.LoadRewritesIncompleteFile | codememo/config.py:91-94 | after loading, the check answers `False` (the file is rewritten) exactly when a written section or one of its keys is missing from the file |
| Config.LoadCheckNeverRaises | codememo/config.py:91-94 | the check after loading a config never raises |
| History.RemoveFirst | codememo/config.py:186-188 | when the file is listed, the result is one shorter, entries before its first occurrence keep their place and later ones move up by one; otherwise the list is unchanged |
| History.RemoveFirstMultiset | codememo/config.py:186-188 | exactly one copy of a listed file is removed, and nothing else |
| History.Add | codememo/config.py:184-192 | the result has 1 to 7 files, starts with the new one, and continues with the old list minus that file's first occurrence, cut to the limit |
| History.AddTwice | codememo/config.py:184-192 | adding the file just added changes nothing |
| History.AddKeepsNoDuplicates | codememo/config.py:184-192 | a list without repeats has none after `add` |
| History.AddKeepsRelativeOrder | codememo/config.py:184-190 | the files after the first keep the order they had before |
| History.AddContents | codememo/config.py:184-190 | when nothing is trimmed, a file is listed afterwards if and only if it is the new file or was listed before |
| History.ToDict | codememo/config.py:181-182 | the record holds the single key `files`, listing the files as strings in order |
| History.FromKwargs | codememo/config.py:172-173 | a missing `files` entry gives the empty list; a list read back is the one the record holds |
| History.LenAfterAdd | codememo/config.py:175-192 | `add` grows the length by one unless the file was listed, and never past the limit of 7 |
| History.FromKwargsToDict | codememo/config.py:172-182 | a history read back from its `to_dict` record is the same list |
| History.AddAfterClear | codememo/config.py:175-195 | `clear()` then `add(fn)` leaves exactly `[fn]`, of length 1 |
| Keys.ModsPress | codememo/_patches.py:96-128 | the press update of the modifier flags leaves `keys_down` untouched |
| Keys.ModsRelease | codememo/_patches.py:130-161 | the release update of the modifier flags leaves `keys_down` untouched |
| Keys.ModsPressFollowsTable | codememo/_patches.py:96-128 | every flag written on press is the X' of the press truth table for its X, Y and Z |
| Keys.ModsReleaseFollowsTable | codememo/_patches.py:130-161 | every flag written on release is the X' of the release truth table for its X, Y and Z |
| Keys.PressForgetsFlags | codememo/_patches.py:117-128 | on press no flag depends on the previous flags or on `keys_down` |
| Keys.ReleaseFlagsIndependent | codememo/_patches.py:150-161 | on release each flag depends on its own previous value only, never on another flag |
| Keys.ReleaseClearsModifier | codememo/_patches.py:150-161 | releasing a modifier key clears its flag whatever the bitmask says |
| Keys.PressKey | codememo/_patches.py:168-180 | the shortcut flag goes up exactly when a mapped special key is pressed with Ctrl held, and is otherwise kept |
| Keys.ReleaseKey | codememo/_patches.py:183-193 | the shortcut flag is lowered exactly by the release of a mapped special key, and is otherwise kept |
| Keys.KeyPress | codememo/_patches.py:163-180 | after a press the modifier flags are those of the press update |
| Keys.KeyRelease | codememo/_patches.py:182-195 | after a release the modifier flags are those of the release update |
| Keys.SpecialPressWithCtrl | codememo/_patches.py:163-174 | a special key pressed with Ctrl in its own event marks its imgui entry and raises the flag |
| Keys.SpecialPressWithoutCtrl | codememo/_patches.py:168-176 | without Ctrl a special key marks its own code and leaves the flag alone |
| Keys.SpecialRelease | codememo/_patches.py:183-189 | releasing a special key clears its imgui entry when the flag is up, its own code otherwise, and lowers the flag |
| Keys.UnknownKeyIgnored | codememo/_patches.py:168-193 | a key that is neither mapped nor an ASCII character changes neither `keys_down` nor the flag |
| Keys.PressReleasePair | codememo/_patches.py:177-193 | a non-special mapped key or an ASCII character is set by its press and cleared by its release at the same entry, and the flag is unchanged |
| Keys.ShortcutReleaseOrder | codememo/_patches.py:80-86 | after Ctrl plus a special key, releasing that key and another key in either order gives the same `keys_down`, with the shortcut's imgui entry cleared and the flag down |
| Keys.OverlappingShortcutsStick | codememo/_patches.py:183-189 | with two Ctrl shortcuts held at once, the second one's imgui entry is still down after both keys are released |
| Keys.HeldAgreesWithFlag | codememo/_patches.py:163-180 | with no shortcut held, the per-key record presses exactly as the single flag does |
| Keys.HeldReleaseClearsShortcut | codememo/_patches.py:80-86 | with the per-key record, releasing a key whose press came with Ctrl clears the imgui entry that press set |
| Keys.HeldSurvivesOtherKeys | codememo/_patches.py:80-86 | with the per-key record, events on other keys never forget that a key's press came with Ctrl |
| Keys.OverlappingShortcutsRelease | codememo/_patches.py:80-86 | with the per-key record, both overlapping shortcuts' imgui entries are cleared by their releases |

## Left out

- Forest.AddLeaf: a leaf added without a slot stores a "no slot" marker. It skips the range check and resolves to root slot 0, which the fixture's slot-less `add_leaf(node)` calls need to give the `root_slot` 0 links expected at tests/test_objects.py:84-90 and 171-185.
- Forest.AddLeaf: the model checks self reference, then multiple root, then circular reference, then slot range (tests/test_objects.py:123-146 trigger each alone, so they do not fix the order). Re-attaching a child to its own parent passes every check and lists the child twice.
- Snippets.NLines: the model counts line breaks (`'\n'`) and adds one.
- History.Add: the model works on values. Python's `__init__` keeps the caller's list (codememo/config.py:173) and `add` changes it in place (lines 186-192), so the class-level default `{'files': []}` of `AppHistory` (lines 198-201, 210) is one list shared by every history built from it. That sharing is not modelled.
- Layers.EveryNodePlaced: says where each node is placed, not that a layer lists it only once; after a child is re-attached to its own parent (see Forest.AddLeaf) the parent lists it twice.
- Snippets.FromDict: typed reading. Name and content must be strings, the optional fields strings, integers or null, and all six keys must be present. Python would accept any values.
- Layers.ResolveTree: layers hold node positions rather than node objects.
- The whole-collection record round trip (`NodeCollection.to_dict` / `from_dict`) is left out. So are the JSON fixture file it reads and UUID generation; uuids are plain strings here.
- Graph-file parsers are left out. Label collisions there are meant to become distinct names ("name (k)", counted per base label).
- Config file I/O is left out: `load`, `write`, `AppDefaults` paths and `AppHistory`.
- DisplayConfig is left out: it holds floating-point timing values that `to_dict` never writes. Only the shape of its entry is checked.
- `_check_remaining_kwargs` only warns, so unknown overrides are ignored.
- Config.AppConfigFromKwargs: a section entry that is not a mapping is reported as an error value. Python would raise a `TypeError` from `**`.
- History.FromKwargs: `files` must be a list of strings. Python accepts any value.
- Keys: key codes, modifier bits, `REVERSE_KEY_MAP` and the special-key set belong to pyglet and imgui. They are parameters here.
- Keys: `keys_down` is a map, so the bounds of imgui's fixed-size array are not modelled.
- Keys: modifier masks are 32-bit and truthiness is `mods & bit != 0`.
- Also left out:
  - the extra TAB key code added to the key map;
  - clipboard access and `use_patch` (platform selection);
  - the renderers and `create_renderer`;
  - `on_text_motion`;
  - everything in `setup.py`.

## Findings

| source | as written | input that shows it | evidently intended | confidence | as-written member | corrected member |
|---|---|---|---|---|---|---|
| codememo/_patches.py:183-189 | one flag `_is_special_key_pressed` records that some Ctrl shortcut is held; the first shortcut key released lowers it | hold Ctrl, press A, press C, release A, release C: A's release lowers the flag, so C's release clears the raw code of C and imgui's `KEY_C` entry stays down | each shortcut key's release clears the imgui entry its own Ctrl press set, whatever else was released before (the comment at lines 80-86) | medium, not executed | Keys.OverlappingShortcutsStick | Keys.OverlappingShortcutsRelease |

=== FILE: config.dfy ===
/**
 * The configuration of the application: the key-completeness check that
 * decides whether a loaded config file has to be rewritten, and the
 * section configs whose records start from defaults and take each listed
 * key from the overrides the file gives.
 */
module Config {
  import opened Wrappers
  import opened Values

  /** The `TypeError`s `check_all_keys_exist` raises. */
  datatype KeyCheckError = TemplateNotDict | TargetNotDict

  /**
   * `check_all_keys_exist(template, target)`: every key of `template` is a
   * key of `target`, and under every dict-valued template key the same
   * holds one level down. Keys are visited in template order and the first
   * missing one answers `false`, so a nested target that is not a dict
   * raises only if it is reached.
   */
  function CheckAllKeysExist(template: Value, target: Value): (r: Result<bool, KeyCheckError>)
    ensures !template.Dict? ==> r == Failure(TemplateNotDict)
    ensures template.Dict? && !target.Dict? ==> r == Failure(TargetNotDict)
    decreases template, 1, 0
  {
    if !template.Dict? then Failure(TemplateNotDict)
    else if !target.Dict? then Failure(TargetNotDict)
    else CheckFrom(template, target, 0)
  }

  /** The loop of `check_all_keys_exist` from the `i`-th template entry on. */
  function CheckFrom(template: Value, target: Value, i: nat): Result<bool, KeyCheckError>
    requires template.Dict? && target.Dict? && i <= |template.entries|
    decreases template, 0, |template.entries| - i
  {
    if i == |template.entries| then Success(true)
    else
      var (k, v) := template.entries[i];
      if !HasKey(target.entries, k) then Success(false)
      else if v.Dict? then
        var ok :- CheckAllKeysExist(v, Lookup(target.entries, k).value);
        if !ok then Success(false) else CheckFrom(template, target, i + 1)
      else CheckFrom(template, target, i + 1)
  }

  /**
   * The declarative reading: both are dicts, and every template entry's key
   * is in the target and, when its value is a dict, covers the target's
   * value under that key.
   */
  predicate Covers(template: Value, target: Value)
    decreases template, 1
  {
    template.Dict? && target.Dict? &&
    forall i: nat :: i < |template.entries| ==> EntryCovered(template, target, i)
  }

  /** The `i`-th template entry is present in the target, recursively. */
  predicate EntryCovered(template: Value, target: Value, i: nat)
    requires template.Dict? && target.Dict? && i < |template.entries|
    decreases template, 0
  {
    var (k, v) := template.entries[i];
    HasKey(target.entries, k) && (v.Dict? ==> Covers(v, Lookup(target.entries, k).value))
  }

  /** `Covers` entry by entry. */
  lemma CoversEveryEntry(template: Value, target: Value)
    requires template.Dict? && target.Dict?
    ensures Covers(template, target) ==>
      forall j: nat :: j < |template.entries| ==> EntryCovered(template, target, j)
    ensures (forall j: nat :: j < |template.entries| ==> EntryCovered(template, target, j)) ==>
      Covers(template, target)
  {
  }

  /** `check_all_keys_exist` answers `True` exactly when the template covers the target. */
  lemma {:induction false} CheckMeansCovers(template: Value, target: Value)
    ensures CheckAllKeysExist(template, target) == Success(true) <==> Covers(template, target)
    decreases template, 1, 0
  {
    if template.Dict? && target.Dict? {
      CheckFromMeansCovered(template, target, 0);
      CoversEveryEntry(template, target);
    }
  }

  /** The loop answers `True` exactly when every entry from `i` on is covered. */
  lemma {:induction false} CheckFromMeansCovered(template: Value, target: Value, i: nat)
    requires template.Dict? && target.Dict? && i <= |template.entries|
    ensures CheckFrom(template, target, i) == Success(true) ==>
      forall j: nat :: i <= j < |template.entries| ==> EntryCovered(template, target, j)
    ensures (forall j: nat :: i <= j < |template.entries| ==> EntryCovered(template, target, j)) ==>
      CheckFrom(template, target, i) == Success(true)
    decreases template, 0, |template.entries| - i
  {
    if i < |template.entries| {
      var (k, v) := template.entries[i];
      CheckFromMeansCovered(template, target, i + 1);
      if HasKey(target.entries, k) && v.Dict? {
        var sub := Lookup(target.entries, k).value;
        CheckMeansCovers(v, sub);
        assert EntryCovered(template, target, i) <==> Covers(v, sub);
        if CheckAllKeysExist(v, sub) == Success(true) {
          assert CheckFrom(template, target, i) == CheckFrom(template, target, i + 1);
        } else {
          assert CheckFrom(template, target, i) != Success(true);
        }
      } else if HasKey(target.entries, k) {
        assert EntryCovered(template, target, i);
        assert CheckFrom(template, target, i) == CheckFrom(template, target, i + 1);
      } else {
        assert !EntryCovered(template, target, i);
      }
    }
  }

  /**
   * The nested `TypeError`: when every entry before `i` is covered and the
   * `i`-th is a dict whose key the target maps to a non-dict, the check
   * raises rather than answering.
   */
  lemma {:induction false} NestedTargetNotDict(template: Value, target: Value, i: nat)
    requires template.Dict? && target.Dict? && i < |template.entries|
    requires forall j :: 0 <= j < i ==> EntryCovered(template, target, j)
    requires template.entries[i].1.Dict? && HasKey(target.entries, template.entries[i].0)
    requires !Lookup(target.entries, template.entries[i].0).value.Dict?
    ensures CheckAllKeysExist(template, target) == Failure(TargetNotDict)
  {
    NestedFrom(template, target, i, 0);
  }

  lemma {:induction false} NestedFrom(template: Value, target: Value, i: nat, j: nat)
    requires template.Dict? && target.Dict? && j <= i < |template.entries|
    requires forall j :: 0 <= j < i ==> EntryCovered(template, target, j)
    requires template.entries[i].1.Dict? && HasKey(target.entries, template.entries[i].0)
    requires !Lookup(target.entries, template.entries[i].0).value.Dict?
    ensures CheckFrom(template, target, j) == Failure(TargetNotDict)
    decreases i - j
  {
    if j < i {
      NestedFrom(template, target, i, j + 1);
      CoveredEntrySkipped(template, target, j);
    } else {
      var (k, v) := template.entries[i];
      assert CheckAllKeysExist(v, Lookup(target.entries, k).value) == Failure(TargetNotDict);
    }
  }

  /** The loop steps over a covered entry without answering. */
  lemma CoveredEntrySkipped(template: Value, target: Value, j: nat)
    requires template.Dict? && target.Dict? && j < |template.entries|
    requires EntryCovered(template, target, j)
    ensures CheckFrom(template, target, j) == CheckFrom(template, target, j + 1)
  {
    var (k, v) := template.entries[j];
    if v.Dict? {
      CheckMeansCovers(v, Lookup(target.entries, k).value);
    }
  }

  /** A well-formed dict covers itself: it has every key it has. */
  lemma {:induction false} CoversItself(d: Value)
    requires d.Dict? && WellFormed(d)
    ensures Covers(d, d)
    decreases d
  {
    forall i | 0 <= i < |d.entries| ensures EntryCovered(d, d, i) {
      var (k, v) := d.entries[i];
      assert k in KeysOf(d.entries) by {
        assert KeysOf(d.entries)[i] == k;
      }
      LookupUnique(d.entries, i);
      if v.Dict? {
        CoversItself(v);
      }
    }
  }

  /** `Lookup` in a longer list finds what it found in the shorter one. */
  lemma {:induction false} LookupExtended(a: seq<(string, Value)>, b: seq<(string, Value)>, k: string)
    requires HasKey(a, k)
    ensures HasKey(a + b, k) && Lookup(a + b, k) == Lookup(a, k)
  {
    if a[0].0 != k {
      assert (a + b)[1..] == a[1..] + b;
      assert KeysOf(a)[1..] == KeysOf(a[1..]);
      LookupExtended(a[1..], b, k);
    }
  }

  /** Extra keys of the target are ignored: appending entries to it keeps it covered. */
  lemma {:induction false} CoversExtendedTarget(template: Value, target: Value, extra: seq<(string, Value)>)
    requires Covers(template, target)
    ensures Covers(template, Dict(target.entries + extra))
  {
    var bigger := Dict(target.entries + extra);
    forall i | 0 <= i < |template.entries| ensures EntryCovered(template, bigger, i) {
      assert EntryCovered(template, target, i);
      LookupExtended(target.entries, extra, template.entries[i].0);
    }
  }

  /**
   * A config section: the name it is stored under, the keys a user may set
   * and the default of each. `ConfigBase.to_dict` writes exactly `keys`.
   */
  datatype Section = Section(name: string, keys: seq<string>, defaults: seq<Value>)

  predicate ValidSection(s: Section) {
    && |s.keys| == |s.defaults|
    && forall i, j :: 0 <= i < j < |s.keys| ==> s.keys[i] != s.keys[j]
  }

  /** `TextInputConfig` with the defaults of `TextInputDefaults`. */
  const TextInput: Section :=
    Section("text_input", ["convert_tab_to_spaces", "tab_to_spaces_number"], [Bool(true), Int(4)])

  /** `ViewerConfig` with the defaults of `ViewerDefaults`. */
  const Viewer: Section :=
    Section("viewer", ["node_max_name_length", "layout_node_offset_y"], [Int(8), Int(80)])

  /**
   * A section's constructor: each listed key is popped from the overrides,
   * falling back to its default; unknown overrides only draw a warning.
   */
  function SectionFromKwargs(s: Section, kwargs: seq<(string, Value)>): (vs: seq<Value>)
    requires |s.keys| == |s.defaults|
    ensures |vs| == |s.keys|
    ensures forall i :: 0 <= i < |vs| && HasKey(kwargs, s.keys[i]) ==> Lookup(kwargs, s.keys[i]) == Some(vs[i])
    ensures forall i :: 0 <= i < |vs| && !HasKey(kwargs, s.keys[i]) ==> vs[i] == s.defaults[i]
  {
    seq(|s.keys|, i requires 0 <= i < |s.keys| => Lookup(kwargs, s.keys[i]).GetOr(s.defaults[i]))
  }

  /** `ConfigBase.to_dict`: the listed keys, in order, with the section's values. */
  function SectionToDict(s: Section, vs: seq<Value>): (d: Value)
    requires |vs| == |s.keys|
    ensures d.Dict? && KeysOf(d.entries) == s.keys
    ensures forall i :: 0 <= i < |vs| ==> d.entries[i].1 == vs[i]
  {
    Dict(seq(|s.keys|, i requires 0 <= i < |s.keys| => (s.keys[i], vs[i])))
  }

  /** A section built from its own record holds the same values. */
  lemma SectionRoundTrip(s: Section, vs: seq<Value>)
    requires ValidSection(s) && |vs| == |s.keys|
    ensures SectionFromKwargs(s, SectionToDict(s, vs).entries) == vs
  {
    var e := SectionToDict(s, vs).entries;
    assert UniqueKeys(e) by {
      forall a, b | 0 <= a < b < |e| ensures e[a].0 != e[b].0 {
        assert e[a].0 == KeysOf(e)[a] && e[b].0 == KeysOf(e)[b];
      }
    }
    forall i | 0 <= i < |vs| ensures SectionFromKwargs(s, e)[i] == vs[i] {
      assert e[i].0 == KeysOf(e)[i];
      LookupUnique(e, i);
    }
  }

  /** The sections of `AppConfig` that `to_dict` writes. */
  datatype AppConfig = AppConfig(textInput: seq<Value>, viewer: seq<Value>)

  predicate ValidApp(c: AppConfig) {
    |c.textInput| == |TextInput.keys| && |c.viewer| == |Viewer.keys|
  }

  /** The `TypeError` of `Section(**value)` when `value` is not a mapping. */
  datatype ConfigError = NotAMapping(section: string)

  /** `kwargs.pop(name, {})` handed on with `**`: absent is empty, present must be a dict. */
  function SectionKwargs(kwargs: seq<(string, Value)>, name: string): (r: Result<seq<(string, Value)>, ConfigError>)
    ensures r.Success? <==> !HasKey(kwargs, name) || Lookup(kwargs, name).value.Dict?
    ensures r.Success? && HasKey(kwargs, name) ==> Lookup(kwargs, name) == Some(Dict(r.value))
    ensures r.Success? && !HasKey(kwargs, name) ==> r.value == []
    ensures r.Failure? ==> r.error == NotAMapping(name)
  {
    match Lookup(kwargs, name)
    case None => Success([])
    case Some(v) => if v.Dict? then Success(v.entries) else Failure(NotAMapping(name))
  }

  /**
   * `AppConfig(**kwargs)`: the display, text-input and viewer sections in
   * that order, each from its own overrides. The display section holds
   * only floating-point timing values that `to_dict` never writes, so only
   * its shape is checked.
   */
  function AppConfigFromKwargs(kwargs: seq<(string, Value)>): (r: Result<AppConfig, ConfigError>)
    ensures r.Success? ==> ValidApp(r.value)
    ensures r.Success? <==>
      && SectionKwargs(kwargs, "display").Success?
      && SectionKwargs(kwargs, TextInput.name).Success?
      && SectionKwargs(kwargs, Viewer.name).Success?
    ensures SectionKwargs(kwargs, "display").Failure? ==> r == Failure(NotAMapping("display"))
  {
    var _ :- SectionKwargs(kwargs, "display");
    var t :- SectionKwargs(kwargs, TextInput.name);
    var w :- SectionKwargs(kwargs, Viewer.name);
    Success(AppConfig(SectionFromKwargs(TextInput, t), SectionFromKwargs(Viewer, w)))
  }

  /** `AppConfig.to_dict`: the text-input and viewer sections, under their names. */
  function AppToDict(c: AppConfig): (d: Value)
    requires ValidApp(c)
    ensures d.Dict? && KeysOf(d.entries) == [TextInput.name, Viewer.name]
  {
    Dict([
      (TextInput.name, SectionToDict(TextInput, c.textInput)),
      (Viewer.name, SectionToDict(Viewer, c.viewer))
    ])
  }

  /** `AppConfig(**c.to_dict())` rebuilds `c`, so its `to_dict` is `c.to_dict()` again. */
  lemma AppConfigRoundTrip(c: AppConfig)
    requires ValidApp(c)
    ensures AppConfigFromKwargs(AppToDict(c).entries) == Success(c)
    ensures AppToDict(AppConfigFromKwargs(AppToDict(c).entries).value) == AppToDict(c)
  {
    var e := AppToDict(c).entries;
    assert UniqueKeys(e) by {
      assert e[0].0 != e[1].0;
    }
    LookupUnique(e, 0);
    LookupUnique(e, 1);
    assert !HasKey(e, "display") by {
      assert KeysOf(e) == [TextInput.name, Viewer.name];
    }
    SectionRoundTrip(TextInput, c.textInput);
    SectionRoundTrip(Viewer, c.viewer);
  }

  /** The values a config holds are what JSON can hold. */
  predicate WellFormedApp(c: AppConfig) {
    && (forall i :: 0 <= i < |c.textInput| ==> WellFormed(c.textInput[i]))
    && (forall i :: 0 <= i < |c.viewer| ==> WellFormed(c.viewer[i]))
  }

  /** `check_all_keys_exist(c.to_dict(), c.to_dict())` holds. */
  lemma AppToDictCoversItself(c: AppConfig)
    requires ValidApp(c) && WellFormedApp(c)
    ensures CheckAllKeysExist(AppToDict(c), AppToDict(c)) == Success(true)
  {
    var d := AppToDict(c);
    SectionWellFormed(TextInput, c.textInput);
    SectionWellFormed(Viewer, c.viewer);
    assert UniqueKeys(d.entries) by {
      assert d.entries[0].0 != d.entries[1].0;
    }
    assert WellFormed(d);
    CoversItself(d);
    CheckMeansCovers(d, d);
  }

  /** A section's record of JSON values is itself a well-formed dict. */
  lemma SectionWellFormed(s: Section, vs: seq<Value>)
    requires ValidSection(s) && |vs| == |s.keys|
    requires forall i :: 0 <= i < |vs| ==> WellFormed(vs[i])
    ensures WellFormed(SectionToDict(s, vs))
  {
    var e := SectionToDict(s, vs).entries;
    forall a, b | 0 <= a < b < |e| ensures e[a].0 != e[b].0 {
      assert e[a].0 == KeysOf(e)[a] && e[b].0 == KeysOf(e)[b];
    }
  }

  /** A value `Lookup` finds in a well-formed dict is well-formed. */
  lemma LookupWellFormed(d: Value, k: string)
    requires d.Dict? && WellFormed(d) && HasKey(d.entries, k)
    ensures WellFormed(Lookup(d.entries, k).value)
  {
    var v := Lookup(d.entries, k).value;
    var j :| 0 <= j < |d.entries| && d.entries[j] == (k, v);
  }

  /**
   * A section built from the overrides `t` writes a record that `t` covers
   * exactly when `t` names every key of the section: a value taken from `t`
   * covers itself, and a default is only written when its key is missing.
   */
  lemma SectionCovered(s: Section, t: seq<(string, Value)>)
    requires ValidSection(s) && WellFormed(Dict(t))
    ensures Covers(SectionToDict(s, SectionFromKwargs(s, t)), Dict(t)) <==>
      forall i :: 0 <= i < |s.keys| ==> HasKey(t, s.keys[i])
  {
    var vs := SectionFromKwargs(s, t);
    var d := SectionToDict(s, vs);
    CoversEveryEntry(d, Dict(t));
    forall i | 0 <= i < |s.keys| ensures EntryCovered(d, Dict(t), i) <==> HasKey(t, s.keys[i]) {
      assert d.entries[i].0 == KeysOf(d.entries)[i];
      if HasKey(t, s.keys[i]) && vs[i].Dict? {
        LookupWellFormed(Dict(t), s.keys[i]);
        CoversItself(vs[i]);
      }
    }
  }

  /**
   * After `AppConfig.load` builds `config` from the file's content, the
   * file is rewritten (`check_all_keys_exist(config.to_dict(), content)` is
   * false) exactly when the content lacks a section `to_dict` writes or a
   * key of one.
   */
  lemma LoadRewritesIncompleteFile(content: seq<(string, Value)>)
    requires WellFormed(Dict(content)) && AppConfigFromKwargs(content).Success?
    ensures var c := AppConfigFromKwargs(content).value;
      CheckAllKeysExist(AppToDict(c), Dict(content)) == Success(true) <==>
        SectionComplete(content, TextInput) && SectionComplete(content, Viewer)
  {
    var c := AppConfigFromKwargs(content).value;
    var d := AppToDict(c);
    CheckMeansCovers(d, Dict(content));
    CoversEveryEntry(d, Dict(content));
    SectionEntry(content, TextInput, d, 0);
    SectionEntry(content, Viewer, d, 1);
  }

  /** The check `AppConfig.load` makes never raises. */
  lemma LoadCheckNeverRaises(content: seq<(string, Value)>)
    requires WellFormed(Dict(content)) && AppConfigFromKwargs(content).Success?
    ensures var c := AppConfigFromKwargs(content).value;
      CheckAllKeysExist(AppToDict(c), Dict(content)).Success?
  {
    var c := AppConfigFromKwargs(content).value;
    var d := AppToDict(c);
    SectionEntry(content, TextInput, d, 0);
    SectionEntry(content, Viewer, d, 1);
    CheckFromSucceeds(d, Dict(content), 0);
  }

  /**
   * Entry `idx` of the config record holds section `s` built from the
   * content: it is covered exactly when the section is complete, and the
   * nested check on it cannot raise.
   */
  lemma SectionEntry(content: seq<(string, Value)>, s: Section, d: Value, idx: nat)
    requires ValidSection(s) && WellFormed(Dict(content))
    requires SectionKwargs(content, s.name).Success?
    requires d.Dict? && idx < |d.entries|
    requires d.entries[idx] == (s.name, SectionToDict(s, SectionFromKwargs(s, SectionKwargs(content, s.name).value)))
    ensures EntryCovered(d, Dict(content), idx) <==> SectionComplete(content, s)
    ensures HasKey(content, s.name) ==>
      CheckAllKeysExist(d.entries[idx].1, Lookup(content, s.name).value).Success?
  {
    if HasKey(content, s.name) {
      var t := SectionKwargs(content, s.name).value;
      LookupWellFormed(Dict(content), s.name);
      SectionCovered(s, t);
      SectionCheckSucceeds(s, t);
    }
  }

  /** The check of a section record against the overrides it was built from never raises. */
  lemma SectionCheckSucceeds(s: Section, t: seq<(string, Value)>)
    requires ValidSection(s) && WellFormed(Dict(t))
    ensures CheckAllKeysExist(SectionToDict(s, SectionFromKwargs(s, t)), Dict(t)).Success?
  {
    var vs := SectionFromKwargs(s, t);
    var d := SectionToDict(s, vs);
    forall j | 0 <= j < |d.entries| && HasKey(t, d.entries[j].0) && d.entries[j].1.Dict?
      ensures CheckAllKeysExist(d.entries[j].1, Lookup(t, d.entries[j].0).value).Success?
    {
      assert d.entries[j].0 == KeysOf(d.entries)[j];
      LookupWellFormed(Dict(t), s.keys[j]);
      CoversItself(vs[j]);
      CheckMeansCovers(vs[j], vs[j]);
    }
    CheckFromSucceeds(d, Dict(t), 0);
  }

  /**
   * The loop cannot raise when no nested check it may reach raises: a
   * missing key answers `false`, a present one either is no dict or its
   * nested check answers.
   */
  lemma {:induction false} CheckFromSucceeds(template: Value, target: Value, i: nat)
    requires template.Dict? && target.Dict? && i <= |template.entries|
    requires forall j :: i <= j < |template.entries| && HasKey(target.entries, template.entries[j].0) && template.entries[j].1.Dict? ==>
      CheckAllKeysExist(template.entries[j].1, Lookup(target.entries, template.entries[j].0).value).Success?
    ensures CheckFrom(template, target, i).Success?
    decreases |template.entries| - i
  {
    if i < |template.entries| {
      CheckFromSucceeds(template, target, i + 1);
    }
  }

  /** The content has the section `s`, and the section names every key of `s`. */
  predicate SectionComplete(content: seq<(string, Value)>, s: Section) {
    && HasKey(content, s.name)
    && Lookup(content, s.name).value.Dict?
    && forall i :: 0 <= i < |s.keys| ==> HasKey(Lookup(content, s.name).value.entries, s.keys[i])
  }
}

=== FILE: fixture.dfy ===
/**
 * The ten-node fixture of the test suite: two trees and one orphan, built
 * from ten fresh nodes by seven `add_leaf` calls with the default slot
 * (`FixtureBuiltByAddLeaf`). The facts below pin the general definitions
 * of the other modules to the concrete answers the tests expect of it.
 */
module Fixture {
  import opened Wrappers
  import opened Values
  import opened Snippets
  import opened Forest
  import opened Links
  import opened Layers

  /** A snippet of the fixture. Only the shape of the forest matters below, so every body is the same. */
  function Plain(name: string): Snippet {
    Snippet(name, "def f():\n    pass", Some("python"), None, None, None)
  }

  /** A fresh node, its uuid standing in for a generated one. */
  function Unlinked(name: string): Node {
    Node(name, Plain(name), None, None, [], Null)
  }

  /** The ten fresh nodes of the fixture, before any attachment. */
  function FreshNodes(): Arena {
    [
      Unlinked("0_0"), Unlinked("0_1"), Unlinked("0_2"), Unlinked("0_3"), Unlinked("0_4"),
      Unlinked("1_0"), Unlinked("1_1"), Unlinked("1_2"), Unlinked("1_3"), Unlinked("1_4")
    ]
  }

  /** The fixture's attachments as (parent, child) pairs, in the order the test makes them. */
  function FixtureEdges(): seq<(nat, nat)> {
    [(0, 1), (0, 2), (2, 3), (5, 6), (6, 7), (6, 8), (7, 9)]
  }

  /**
   * `parent.add_leaf(child)` for each pair in turn, on a forest: every call
   * succeeds, and the last one leaves `g`.
   */
  ghost predicate AttachesTo(f: Arena, edges: seq<(nat, nat)>, g: Arena)
    decreases |edges|
  {
    if edges == [] then g == f
    else
      && IsForest(f) && edges[0].0 < |f| && edges[0].1 < |f|
      && AddLeaf(f, edges[0].0, edges[0].1, None).Success?
      && AttachesTo(AddLeaf(f, edges[0].0, edges[0].1, None).value, edges[1..], g)
  }

  /** Nodes with neither parent nor children. */
  predicate AllFresh(f: Arena) {
    forall i :: 0 <= i < |f| ==> f[i].root.None? && f[i].leaves == []
  }

  /** `g` holds the same nodes as `f` apart from their links. */
  predicate SameNodes(f: Arena, g: Arena) {
    && |g| == |f|
    && forall i :: 0 <= i < |f| ==>
         g[i].uuid == f[i].uuid && g[i].snippet == f[i].snippet
         && g[i].comment == f[i].comment && g[i].refInfo == f[i].refInfo
  }

  /** Fresh nodes form a forest. */
  lemma FreshIsForest(f: Arena)
    requires AllFresh(f)
    ensures IsForest(f)
  {
    assert Ranked(f, seq(|f|, i => 0));
  }

  /** Leaves at the default slot, one per child, in order. */
  function DefaultLeaves(cs: seq<nat>): (ls: seq<Leaf>)
    ensures |ls| == |cs|
    ensures forall k :: 0 <= k < |cs| ==> ls[k] == Leaf(None, cs[k])
  {
    seq(|cs|, k requires 0 <= k < |cs| => Leaf(None, cs[k]))
  }

  /** Every node of `f` has the parent `roots` names and the children `kids` names, at the default slot. */
  predicate HasLinks(f: Arena, roots: seq<Option<nat>>, kids: seq<seq<nat>>) {
    && |roots| == |f| && |kids| == |f|
    && forall i :: 0 <= i < |f| ==> f[i].root == roots[i] && f[i].leaves == DefaultLeaves(kids[i])
  }

  /** One attachment: a fresh child hung below its parent, with the links recorded. */
  lemma AttachStep(f0: Arena, f: Arena, roots: seq<Option<nat>>, kids: seq<seq<nat>>, p: nat, c: nat)
    requires IsForest(f) && HasLinks(f, roots, kids) && SameNodes(f0, f)
    requires p < |f| && c < |f| && p != c && roots[c].None? && kids[c] == []
    ensures AddLeaf(f, p, c, None) == Success(AttachDefault(f, p, c))
    ensures IsForest(AttachDefault(f, p, c))
    ensures HasLinks(AttachDefault(f, p, c), roots[c := Some(p)], kids[p := kids[p] + [c]])
    ensures SameNodes(f0, AttachDefault(f, p, c))
  {
    AttachFreshLeaf(f, p, c);
    assert DefaultLeaves(kids[p] + [c]) == DefaultLeaves(kids[p]) + [Leaf(None, c)];
  }

  /** Every pair of `edges` is in range, and its child has no parent and no children when its turn comes. */
  predicate FreshChain(roots: seq<Option<nat>>, kids: seq<seq<nat>>, edges: seq<(nat, nat)>)
    requires |kids| == |roots|
    decreases |edges|
  {
    edges == [] ||
      var (p, c) := edges[0];
      && p < |roots| && c < |roots| && p != c && roots[c].None? && kids[c] == []
      && FreshChain(roots[c := Some(p)], kids[p := kids[p] + [c]], edges[1..])
  }

  /** The parents and children after the attachments of a fresh chain. */
  function LinksAfter(roots: seq<Option<nat>>, kids: seq<seq<nat>>, edges: seq<(nat, nat)>)
    : (r: (seq<Option<nat>>, seq<seq<nat>>))
    requires |kids| == |roots| && FreshChain(roots, kids, edges)
    ensures |r.0| == |roots| && |r.1| == |roots|
    decreases |edges|
  {
    if edges == [] then (roots, kids)
    else
      var (p, c) := edges[0];
      LinksAfter(roots[c := Some(p)], kids[p := kids[p] + [c]], edges[1..])
  }

  /**
   * A sequence of `add_leaf` calls, each hanging a node that has neither
   * parent nor children, always succeeds, and ends with exactly the links
   * the calls name; nothing but links changes.
   */
  lemma {:induction false} AttachChain(f0: Arena, f: Arena, roots: seq<Option<nat>>, kids: seq<seq<nat>>,
                                       edges: seq<(nat, nat)>) returns (g: Arena)
    requires IsForest(f) && HasLinks(f, roots, kids) && SameNodes(f0, f)
    requires FreshChain(roots, kids, edges)
    ensures AttachesTo(f, edges, g)
    ensures HasLinks(g, LinksAfter(roots, kids, edges).0, LinksAfter(roots, kids, edges).1)
    ensures SameNodes(f0, g)
    decreases |edges|
  {
    if edges == [] {
      g := f;
    } else {
      var (p, c) := edges[0];
      AttachStep(f0, f, roots, kids, p, c);
      g := AttachChain(f0, AttachDefault(f, p, c), roots[c := Some(p)], kids[p := kids[p] + [c]], edges[1..]);
    }
  }

  /** One link of a fresh chain, from the links before it to the links after it. */
  lemma ChainStep(roots: seq<Option<nat>>, kids: seq<seq<nat>>, p: nat, c: nat, rest: seq<(nat, nat)>,
                  roots': seq<Option<nat>>, kids': seq<seq<nat>>)
    requires |kids| == |roots| && p < |roots| && c < |roots| && p != c && roots[c].None? && kids[c] == []
    requires roots' == roots[c := Some(p)] && kids' == kids[p := kids[p] + [c]]
    requires FreshChain(roots', kids', rest)
    ensures FreshChain(roots, kids, [(p, c)] + rest)
    ensures LinksAfter(roots, kids, [(p, c)] + rest) == LinksAfter(roots', kids', rest)
  {
    assert ([(p, c)] + rest)[1..] == rest;
  }

  /** The fixture's seven attachments form a fresh chain from ten fresh nodes, ending in the fixture's links. */
  lemma FixtureChain()
    ensures FreshChain([None, None, None, None, None, None, None, None, None, None], [[], [], [], [], [], [], [], [], [], []], FixtureEdges())
    ensures LinksAfter([None, None, None, None, None, None, None, None, None, None], [[], [], [], [], [], [], [], [], [], []], FixtureEdges()) ==
      ([None, Some(0), Some(0), Some(2), None, None, Some(5), Some(6), Some(6), Some(7)],
       [[1, 2], [], [3], [], [], [6], [7, 8], [9], [], []])
  {
    var r3: seq<Option<nat>> := [None, Some(0), Some(0), Some(2), None, None, None, None, None, None];
    var k3: seq<seq<nat>> := [[1, 2], [], [3], [], [], [], [], [], [], []];
    FixtureChainLate(r3, k3);
    FixtureChainEarly([None, None, None, None, None, None, None, None, None, None], [[], [], [], [], [], [], [], [], [], []], r3, k3);
    assert FixtureEdges() == [(0, 1), (0, 2), (2, 3)] + [(5, 6), (6, 7), (6, 8), (7, 9)];
  }

  lemma FixtureChainEarly(r0: seq<Option<nat>>, k0: seq<seq<nat>>, r3: seq<Option<nat>>, k3: seq<seq<nat>>)
    requires r0 == [None, None, None, None, None, None, None, None, None, None]
    requires k0 == [[], [], [], [], [], [], [], [], [], []]
    requires r3 == [None, Some(0), Some(0), Some(2), None, None, None, None, None, None]
    requires k3 == [[1, 2], [], [3], [], [], [], [], [], [], []]
    requires FreshChain(r3, k3, [(5, 6), (6, 7), (6, 8), (7, 9)])
    ensures FreshChain(r0, k0, [(0, 1), (0, 2), (2, 3)] + [(5, 6), (6, 7), (6, 8), (7, 9)])
    ensures LinksAfter(r0, k0, [(0, 1), (0, 2), (2, 3)] + [(5, 6), (6, 7), (6, 8), (7, 9)]) ==
      LinksAfter(r3, k3, [(5, 6), (6, 7), (6, 8), (7, 9)])
  {
    var n: Option<nat> := None;
    var z: seq<nat> := [];
    var rest := [(5, 6), (6, 7), (6, 8), (7, 9)];
    var r1, k1 := [n, Some(0), n, n, n, n, n, n, n, n], [[1], z, z, z, z, z, z, z, z, z];
    var r2, k2 := [n, Some(0), Some(0), n, n, n, n, n, n, n], [[1, 2], z, z, z, z, z, z, z, z, z];
    assert k2[2] + [3] == [3];
    ChainStep(r2, k2, 2, 3, rest, r3, k3);
    assert k1[0] + [2] == [1, 2];
    ChainStep(r1, k1, 0, 2, [(2, 3)] + rest, r2, k2);
    assert k0[0] + [1] == [1];
    ChainStep(r0, k0, 0, 1, [(0, 2)] + ([(2, 3)] + rest), r1, k1);
    assert [(0, 1), (0, 2), (2, 3)] + rest == [(0, 1)] + ([(0, 2)] + ([(2, 3)] + rest));
  }

  lemma FixtureChainLate(r3: seq<Option<nat>>, k3: seq<seq<nat>>)
    requires r3 == [None, Some(0), Some(0), Some(2), None, None, None, None, None, None]
    requires k3 == [[1, 2], [], [3], [], [], [], [], [], [], []]
    ensures FreshChain(r3, k3, [(5, 6), (6, 7), (6, 8), (7, 9)])
    ensures LinksAfter(r3, k3, [(5, 6), (6, 7), (6, 8), (7, 9)]) ==
      ([None, Some(0), Some(0), Some(2), None, None, Some(5), Some(6), Some(6), Some(7)],
       [[1, 2], [], [3], [], [], [6], [7, 8], [9], [], []])
  {
    var n: Option<nat> := None;
    var z: seq<nat> := [];
    var r4, k4 := [n, Some(0), Some(0), Some(2), n, n, Some(5), n, n, n], [[1, 2], z, [3], z, z, [6], z, z, z, z];
    var r5, k5 := [n, Some(0), Some(0), Some(2), n, n, Some(5), Some(6), n, n], [[1, 2], z, [3], z, z, [6], [7], z, z, z];
    var r6, k6 := [n, Some(0), Some(0), Some(2), n, n, Some(5), Some(6), Some(6), n], [[1, 2], z, [3], z, z, [6], [7, 8], z, z, z];
    var r7, k7 := [n, Some(0), Some(0), Some(2), n, n, Some(5), Some(6), Some(6), Some(7)], [[1, 2], z, [3], z, z, [6], [7, 8], [9], z, z];
    assert LinksAfter(r7, k7, []) == (r7, k7);
    assert k6[7] + [9] == [9];
    ChainStep(r6, k6, 7, 9, [], r7, k7);
    assert k5[6] + [8] == [7, 8];
    ChainStep(r5, k5, 6, 8, [(7, 9)], r6, k6);
    assert k4[6] + [7] == [7];
    ChainStep(r4, k4, 6, 7, [(6, 8), (7, 9)], r5, k5);
    assert k3[5] + [6] == [6];
    ChainStep(r3, k3, 5, 6, [(6, 7), (6, 8), (7, 9)], r4, k4);
  }

  /** Before any attachment: no parents, no children. */
  lemma FreshLinks(f0: Arena)
    requires |f0| == 10 && AllFresh(f0)
    ensures HasLinks(f0, [None, None, None, None, None, None, None, None, None, None], [[], [], [], [], [], [], [], [], [], []])
  {
  }

  /** The links after the seven attachments are the fixture's. */
  lemma FinalLinks(f: Arena)
    requires HasLinks(f, [None, Some(0), Some(0), Some(2), None, None, Some(5), Some(6), Some(6), Some(7)],
                         [[1, 2], [], [3], [], [], [6], [7, 8], [9], [], []])
    ensures HasFixtureShape(f)
  {
  }

  /**
   * The seven attachments of the fixture all succeed on any ten fresh
   * nodes and give them the fixture's shape, changing nothing but links.
   */
  lemma SevenAttachments(f0: Arena) returns (g: Arena)
    requires |f0| == 10 && AllFresh(f0)
    ensures AttachesTo(f0, FixtureEdges(), g)
    ensures HasFixtureShape(g) && SameNodes(f0, g)
  {
    FreshIsForest(f0);
    FreshLinks(f0);
    FixtureChain();
    g := AttachChain(f0, f0, [None, None, None, None, None, None, None, None, None, None], [[], [], [], [], [], [], [], [], [], []], FixtureEdges());
    FinalLinks(g);
  }

  /** Two arenas with the same nodes and both of the fixture's shape are equal. */
  lemma ShapeDeterminesArena(f: Arena, g: Arena, h: Arena)
    requires SameNodes(f, g) && SameNodes(f, h) && HasFixtureShape(g) && HasFixtureShape(h)
    ensures g == h
  {
    forall i | 0 <= i < 10 ensures g[i] == h[i] {
    }
  }

  /** The fresh nodes and the fixture hold the same nodes, and the fresh ones have no links. */
  lemma FreshNodesMatch()
    ensures |FreshNodes()| == 10 && AllFresh(FreshNodes())
    ensures SameNodes(FreshNodes(), MultipleTree())
  {
  }

  /** The seven `add_leaf` calls of the test turn the ten fresh nodes into exactly the fixture. */
  lemma FixtureBuiltByAddLeaf()
    ensures AttachesTo(FreshNodes(), FixtureEdges(), MultipleTree())
  {
    FreshNodesMatch();
    var g := SevenAttachments(FreshNodes());
    FixtureShape();
    ShapeDeterminesArena(FreshNodes(), g, MultipleTree());
  }

  /** The ten nodes after `0->1`, `0->2`, `2->3`, `5->6`, `6->7`, `6->8` and `7->9`. */
  function MultipleTree(): Arena {
    [
      Unlinked("0_0").(leaves := [Leaf(None, 1), Leaf(None, 2)]),
      Unlinked("0_1").(root := Some(0)),
      Unlinked("0_2").(root := Some(0), leaves := [Leaf(None, 3)]),
      Unlinked("0_3").(root := Some(2)),
      Unlinked("0_4"),
      Unlinked("1_0").(leaves := [Leaf(None, 6)]),
      Unlinked("1_1").(root := Some(5), leaves := [Leaf(None, 7), Leaf(None, 8)]),
      Unlinked("1_2").(root := Some(6), leaves := [Leaf(None, 9)]),
      Unlinked("1_3").(root := Some(6)),
      Unlinked("1_4").(root := Some(7))
    ]
  }

  /** The fixture, built by its seven `add_leaf` calls, satisfies the forest invariant. */
  lemma FixtureIsForest()
    ensures AttachesTo(FreshNodes(), FixtureEdges(), MultipleTree())
    ensures IsForest(MultipleTree())
  {
    FixtureBuiltByAddLeaf();
    FixtureShape();
    ShapeIsForest(MultipleTree());
  }

  /** The parent and the child list of every node of the fixture. */
  predicate HasFixtureShape(f: Arena) {
    && |f| == 10
    && f[0].root == None && f[0].leaves == [Leaf(None, 1), Leaf(None, 2)]
    && f[1].root == Some(0) && f[1].leaves == []
    && f[2].root == Some(0) && f[2].leaves == [Leaf(None, 3)]
    && f[3].root == Some(2) && f[3].leaves == []
    && f[4].root == None && f[4].leaves == []
    && f[5].root == None && f[5].leaves == [Leaf(None, 6)]
    && f[6].root == Some(5) && f[6].leaves == [Leaf(None, 7), Leaf(None, 8)]
    && f[7].root == Some(6) && f[7].leaves == [Leaf(None, 9)]
    && f[8].root == Some(6) && f[8].leaves == []
    && f[9].root == Some(7) && f[9].leaves == []
  }

  /** The literal arena has that shape. */
  lemma FixtureShape()
    ensures HasFixtureShape(MultipleTree())
  {
  }

  /** The child lists of an arena of that shape. */
  lemma ShapeChildren(f: Arena)
    requires HasFixtureShape(f)
    ensures ChildrenOf(f[0]) == [1, 2] && ChildrenOf(f[1]) == [] && ChildrenOf(f[2]) == [3]
    ensures ChildrenOf(f[3]) == [] && ChildrenOf(f[4]) == [] && ChildrenOf(f[5]) == [6]
    ensures ChildrenOf(f[6]) == [7, 8] && ChildrenOf(f[7]) == [9]
    ensures ChildrenOf(f[8]) == [] && ChildrenOf(f[9]) == []
  {
  }

  /** Any arena of the fixture's shape is a forest. */
  lemma ShapeIsForest(f: Arena)
    requires HasFixtureShape(f)
    ensures IsForest(f)
  {
    ShapeClosed(f);
    ShapeLinked(f);
    ShapeRanked(f);
  }

  lemma ShapeClosed(f: Arena)
    requires HasFixtureShape(f)
    ensures Closed(f) && SlotsInRange(f)
  {
    ShapeChildren(f);
  }

  lemma ShapeLinked(f: Arena)
    requires HasFixtureShape(f) && Closed(f)
    ensures Linked(f)
  {
    ShapeChildren(f);
  }

  lemma ShapeRanked(f: Arena)
    requires HasFixtureShape(f)
    ensures Ranked(f, [0, 1, 1, 2, 0, 0, 1, 2, 2, 3])
  {
  }

  /** `resolve_index_links` on the fixture gives the seven expected links, in order. */
  lemma FixtureIndexLinks()
    ensures IndexLinksUpTo(MultipleTree(), 10) == [
      IndexLink(0, 0, 1, 0), IndexLink(0, 0, 2, 1), IndexLink(2, 0, 3, 0),
      IndexLink(5, 0, 6, 0), IndexLink(6, 0, 7, 0), IndexLink(6, 0, 8, 1), IndexLink(7, 0, 9, 0)]
  {
    var f := MultipleTree();
    var two := [Leaf(None, 1), Leaf(None, 2)];
    assert two[..1] == [Leaf(None, 1)] && [Leaf(None, 1)][..0] == [];
    assert CountSlot(two[..1], 0) == 1;
    assert NodeIndexLinks(f, 0) == [IndexLink(0, 0, 1, 0), IndexLink(0, 0, 2, 1)];
    var two' := [Leaf(None, 7), Leaf(None, 8)];
    assert two'[..1] == [Leaf(None, 7)] && [Leaf(None, 7)][..0] == [];
    assert CountSlot(two'[..1], 0) == 1;
    assert NodeIndexLinks(f, 6) == [IndexLink(6, 0, 7, 0), IndexLink(6, 0, 8, 1)];
    assert NodeIndexLinks(f, 2) == [IndexLink(2, 0, 3, 0)];
    assert NodeIndexLinks(f, 5) == [IndexLink(5, 0, 6, 0)];
    assert NodeIndexLinks(f, 7) == [IndexLink(7, 0, 9, 0)];
    assert NodeIndexLinks(f, 1) == [] && NodeIndexLinks(f, 3) == [] && NodeIndexLinks(f, 4) == [];
    assert NodeIndexLinks(f, 8) == [] && NodeIndexLinks(f, 9) == [];
    assert IndexLinksUpTo(f, 1) == NodeIndexLinks(f, 0);
    assert IndexLinksUpTo(f, 3) == NodeIndexLinks(f, 0) + NodeIndexLinks(f, 2);
    assert IndexLinksUpTo(f, 6) == IndexLinksUpTo(f, 3) + NodeIndexLinks(f, 5);
    assert IndexLinksUpTo(f, 8) == IndexLinksUpTo(f, 6) + NodeIndexLinks(f, 6) + NodeIndexLinks(f, 7);
  }

  /**
   * `resolve_tree` on the fixture: the tree under node 0 in three layers,
   * the tree under node 5 in four, and node 4 as the only orphan.
   */
  lemma FixtureResolveTree()
    ensures IsForest(MultipleTree())
    ensures ResolveTree(MultipleTree()) == ([[[0], [1, 2], [3]], [[5], [6], [7, 8], [9]]], [4])
  {
    FixtureShape();
    ShapeIsForest(MultipleTree());
    ShapeResolveTree(MultipleTree());
  }

  lemma ShapeResolveTree(f: Arena)
    requires HasFixtureShape(f) && IsForest(f)
    ensures ResolveTree(f) == ([[[0], [1, 2], [3]], [[5], [6], [7, 8], [9]]], [4])
  {
    ShapeRoots(f);
    ShapeOrphans(f);
    ShapeFirstTree(f);
    ShapeSecondTree(f);
    var r := ResolveTree(f);
    assert |r.0| == 2 && r.0[0] == Tree(f, 0) && r.0[1] == Tree(f, 5);
    assert r.0 == [Tree(f, 0), Tree(f, 5)];
  }

  /** The tree roots, collected in collection order. */
  lemma ShapeRoots(f: Arena)
    requires HasFixtureShape(f)
    ensures TreeRootsUpTo(f, 10) == [0, 5]
  {
    ShapeRootsBefore(f);
    assert TreeRootsUpTo(f, 6) == [0, 5];
    assert TreeRootsUpTo(f, 7) == [0, 5];
    assert TreeRootsUpTo(f, 8) == [0, 5];
    assert TreeRootsUpTo(f, 9) == [0, 5];
  }

  lemma ShapeRootsBefore(f: Arena)
    requires HasFixtureShape(f)
    ensures TreeRootsUpTo(f, 5) == [0]
  {
    assert IsTreeRoot(f[0]) && !IsTreeRoot(f[1]) && !IsTreeRoot(f[2]);
    assert !IsTreeRoot(f[3]) && !IsTreeRoot(f[4]);
    assert TreeRootsUpTo(f, 0) == [];
    assert TreeRootsUpTo(f, 1) == [0];
    assert TreeRootsUpTo(f, 2) == [0];
    assert TreeRootsUpTo(f, 3) == [0];
    assert TreeRootsUpTo(f, 4) == [0];
  }

  /** The orphans, collected in collection order. */
  lemma ShapeOrphans(f: Arena)
    requires HasFixtureShape(f)
    ensures OrphansUpTo(f, 10) == [4]
  {
    assert OrphansUpTo(f, 1) == [];
    assert OrphansUpTo(f, 2) == [];
    assert OrphansUpTo(f, 3) == [];
    assert OrphansUpTo(f, 4) == [];
    assert OrphansUpTo(f, 5) == [4];
    assert OrphansUpTo(f, 6) == [4];
    assert OrphansUpTo(f, 7) == [4];
    assert OrphansUpTo(f, 8) == [4];
    assert OrphansUpTo(f, 9) == [4];
  }

  /** The layers under node 0: its two children, then node 3. */
  lemma ShapeFirstTree(f: Arena)
    requires HasFixtureShape(f) && IsForest(f)
    ensures Tree(f, 0) == [[0], [1, 2], [3]]
  {
    ShapeFirstNextLayers(f);
    ShapeFirstAtDepth(f);
    var l0: seq<nat>, l1: seq<nat>, l2: seq<nat> := [0], [1, 2], [3];
    LayersStep(f, l2, 0, 2);
    LayersFromHead(f, [], 0, 3);
    LayersStep(f, l1, 0, 1);
    LayersStep(f, l0, 0, 0);
  }

  lemma ShapeFirstAtDepth(f: Arena)
    requires HasFixtureShape(f) && Acyclic(f)
    ensures AtDepth(f, [0], 0, 0) && AtDepth(f, [1, 2], 0, 1) && AtDepth(f, [3], 0, 2)
  {
    ShapeFirstDepths(f);
  }

  /** One unfolding of the layer walk. */
  lemma LayersStep(f: Arena, layer: seq<nat>, t: nat, d: nat)
    requires IsForest(f) && AtDepth(f, layer, t, d) && layer != []
    ensures AtDepth(f, NextLayer(f, layer), t, d + 1)
    ensures LayersFrom(f, layer, t, d) == [layer] + LayersFrom(f, NextLayer(f, layer), t, d + 1)
  {
    NextLayerDeeper(f, layer, t, d);
  }

  lemma ShapeFirstNextLayers(f: Arena)
    requires HasFixtureShape(f)
    ensures NextLayer(f, [0]) == [1, 2] && NextLayer(f, [1, 2]) == [3] && NextLayer(f, [3]) == []
  {
    ShapeChildren(f);
    var l0: seq<nat>, l1: seq<nat>, l2: seq<nat> := [0], [1, 2], [3];
    assert NextLayer(f, l0) == l1 by { assert l0[..0] == []; }
    assert NextLayer(f, l1) == l2 by { assert l1[..1] == [1] && [1][..0] == []; }
    assert NextLayer(f, l2) == [] by { assert l2[..0] == []; }
  }

  lemma ShapeFirstDepths(f: Arena)
    requires HasFixtureShape(f) && Acyclic(f)
    ensures Depth(f, 0) == 0 && TopOf(f, 0) == 0
    ensures Depth(f, 1) == 1 && TopOf(f, 1) == 0
    ensures Depth(f, 2) == 1 && TopOf(f, 2) == 0
    ensures Depth(f, 3) == 2 && TopOf(f, 3) == 0
  {
    assert Depth(f, 0) == 0 && TopOf(f, 0) == 0;
    assert Depth(f, 2) == 1 && TopOf(f, 2) == 0;
  }

  /** The layers under node 5: node 6, its two children, then node 9. */
  lemma ShapeSecondTree(f: Arena)
    requires HasFixtureShape(f) && IsForest(f)
    ensures Tree(f, 5) == [[5], [6], [7, 8], [9]]
  {
    ShapeSecondNextLayers(f);
    ShapeSecondAtDepth(f);
    var l0: seq<nat>, l1: seq<nat>, l2: seq<nat>, l3: seq<nat> := [5], [6], [7, 8], [9];
    LayersStep(f, l3, 5, 3);
    LayersFromHead(f, [], 5, 4);
    LayersStep(f, l2, 5, 2);
    LayersStep(f, l1, 5, 1);
    LayersStep(f, l0, 5, 0);
  }

  lemma ShapeSecondNextLayers(f: Arena)
    requires HasFixtureShape(f)
    ensures NextLayer(f, [5]) == [6] && NextLayer(f, [6]) == [7, 8]
    ensures NextLayer(f, [7, 8]) == [9] && NextLayer(f, [9]) == []
  {
    ShapeChildren(f);
    var l0: seq<nat>, l1: seq<nat>, l2: seq<nat>, l3: seq<nat> := [5], [6], [7, 8], [9];
    assert NextLayer(f, l0) == l1 by { assert l0[..0] == []; }
    assert NextLayer(f, l1) == l2 by { assert l1[..0] == []; }
    assert NextLayer(f, l2) == l3 by { assert l2[..1] == [7] && [7][..0] == []; }
    assert NextLayer(f, l3) == [] by { assert l3[..0] == []; }
  }

  lemma ShapeSecondAtDepth(f: Arena)
    requires HasFixtureShape(f) && Acyclic(f)
    ensures AtDepth(f, [5], 5, 0) && AtDepth(f, [6], 5, 1)
    ensures AtDepth(f, [7, 8], 5, 2) && AtDepth(f, [9], 5, 3)
  {
    ShapeSecondDepths(f);
  }

  lemma ShapeSecondDepths(f: Arena)
    requires HasFixtureShape(f) && Acyclic(f)
    ensures Depth(f, 5) == 0 && TopOf(f, 5) == 5
    ensures Depth(f, 6) == 1 && TopOf(f, 6) == 5
    ensures Depth(f, 7) == 2 && TopOf(f, 7) == 5
    ensures Depth(f, 8) == 2 && TopOf(f, 8) == 5
    ensures Depth(f, 9) == 3 && TopOf(f, 9) == 5
  {
    assert Depth(f, 5) == 0 && TopOf(f, 5) == 5;
    assert Depth(f, 6) == 1 && TopOf(f, 6) == 5;
    assert Depth(f, 7) == 2 && TopOf(f, 7) == 5;
  }
}

=== FILE: forest.dfy ===
/**
 * The node forest as an arena: a `Node` refers to its parent and to its
 * children by their positions in one sequence of nodes. `AddLeaf` is
 * `Node.add_leaf`, the only way links come into being, and it keeps the
 * arena a forest: every child points back at its single parent, every
 * attachment slot names a real line of the parent, and the parent chain
 * never loops.
 */
module Forest {
  import opened Wrappers
  import opened Values
  import opened Snippets

  /**
   * One entry of `Node.leaves`: the child and the line of the parent's
   * snippet it hangs from. `None` is the slot of an attachment made without
   * an explicit slot: it passes the range check and resolves to line 0.
   */
  datatype Leaf = Leaf(slot: Option<int>, child: nat)

  datatype Node = Node(
    uuid: string,
    snippet: Snippet,
    comment: Option<string>,
    root: Option<nat>,
    leaves: seq<Leaf>,
    refInfo: Value)

  /** The nodes of a collection, in collection order. */
  type Arena = seq<Node>

  /** The four ways `add_leaf` refuses an attachment. */
  datatype AttachError = SelfReference | MultipleRoot | CircularReference | SlotRange

  /** The slot an attachment made without an explicit slot resolves to. */
  const DefaultRootSlot: int := 0

  /** A node's children, in attachment order. */
  function ChildrenOf(n: Node): (cs: seq<nat>)
    ensures |cs| == |n.leaves|
    ensures forall k :: 0 <= k < |n.leaves| ==> cs[k] == n.leaves[k].child
  {
    seq(|n.leaves|, k requires 0 <= k < |n.leaves| => n.leaves[k].child)
  }

  /** The `root_slot` an attachment shows up with. */
  function RootSlot(l: Leaf): int {
    l.slot.GetOr(DefaultRootSlot)
  }

  /** A slot the range check of `add_leaf` lets through for parent `n`. */
  predicate SlotInRange(n: Node, slot: Option<int>) {
    slot.None? || 1 <= slot.value <= NLines(n.snippet)
  }

  /** Every index stored in the arena refers to a node of it. */
  ghost predicate Closed(f: Arena) {
    forall i :: 0 <= i < |f| ==>
      && (f[i].root.Some? ==> f[i].root.value < |f|)
      && (forall c :: c in ChildrenOf(f[i]) ==> c < |f|)
  }

  /** Parent and child links agree: a child names its parent, a parent lists its child. */
  ghost predicate Linked(f: Arena)
    requires Closed(f)
  {
    && (forall i, c :: 0 <= i < |f| && c in ChildrenOf(f[i]) ==> f[c].root == Some(i))
    && (forall j :: 0 <= j < |f| && f[j].root.Some? ==> j in ChildrenOf(f[f[j].root.value]))
  }

  /** Every recorded slot passed the range check. */
  ghost predicate SlotsInRange(f: Arena) {
    forall i, k :: 0 <= i < |f| && 0 <= k < |f[i].leaves| ==> SlotInRange(f[i], f[i].leaves[k].slot)
  }

  /** `rank` strictly increases from every parent to its child. */
  ghost predicate Ranked(f: Arena, rank: seq<nat>) {
    && |rank| == |f|
    && forall i :: 0 <= i < |f| && f[i].root.Some? ==>
         f[i].root.value < |f| && rank[f[i].root.value] < rank[i]
  }

  /** No parent chain loops. */
  ghost predicate Acyclic(f: Arena) {
    exists rank :: Ranked(f, rank)
  }

  /** A ranking of an acyclic arena, used as the termination measure of upward walks. */
  ghost function RankOf(f: Arena): (rank: seq<nat>)
    requires Acyclic(f)
    ensures Ranked(f, rank)
  {
    var rank :| Ranked(f, rank); rank
  }

  /** The shape invariant every collection of nodes keeps. */
  ghost predicate IsForest(f: Arena) {
    && Closed(f)
    && Linked(f)
    && SlotsInRange(f)
    && Acyclic(f)
  }

  /** `a` lies on the parent chain above `i` (the walk `add_leaf` performs). */
  function IsAncestor(f: Arena, a: nat, i: nat): (r: bool)
    requires Acyclic(f) && i < |f|
    ensures r ==> f[i].root.Some? && a < |f| && RankOf(f)[a] < RankOf(f)[i]
    decreases RankOf(f)[i]
  {
    match f[i].root
    case None => false
    case Some(p) => p == a || IsAncestor(f, a, p)
  }

  /** A node found on the parent chain above `i` lies strictly above `i` in every ranking of the arena. */
  lemma {:induction false} AncestorAboveInEveryRanking(f: Arena, rank: seq<nat>, a: nat, i: nat)
    requires Acyclic(f) && i < |f| && Ranked(f, rank)
    requires IsAncestor(f, a, i)
    ensures a < |f| && rank[a] < rank[i]
    decreases RankOf(f)[i]
  {
    var p := f[i].root.value;
    if p != a {
      AncestorAboveInEveryRanking(f, rank, a, p);
    }
  }

  /** The node `n` steps up the parent chain from `i`, if the chain is that long. */
  ghost function Up(f: Arena, i: nat, n: nat): Option<nat>
    requires Closed(f) && i < |f|
    ensures Up(f, i, n).Some? ==> Up(f, i, n).value < |f|
    decreases n
  {
    if n == 0 then Some(i)
    else match f[i].root
      case None => None
      case Some(p) => Up(f, p, n - 1)
  }

  /** The upward walk finds exactly the nodes some number of parent steps above `i`. */
  lemma {:induction false} IsAncestorMeansUp(f: Arena, a: nat, i: nat)
    requires Closed(f) && Acyclic(f) && i < |f|
    ensures IsAncestor(f, a, i) ==> exists n :: 1 <= n && Up(f, i, n) == Some(a)
    ensures (exists n :: 1 <= n && Up(f, i, n) == Some(a)) ==> IsAncestor(f, a, i)
    decreases RankOf(f)[i]
  {
    match f[i].root
    case None =>
      forall n | 1 <= n ensures Up(f, i, n) == None {
      }
    case Some(p) =>
      IsAncestorMeansUp(f, a, p);
      if IsAncestor(f, a, i) {
        if p == a {
          assert Up(f, i, 1) == Up(f, p, 0) == Some(a);
        } else {
          var n :| 1 <= n && Up(f, p, n) == Some(a);
          assert Up(f, i, n + 1) == Up(f, p, n);
        }
      } else {
        assert p != a && !IsAncestor(f, a, p);
        forall n | 1 <= n ensures Up(f, i, n) != Some(a) {
          assert Up(f, i, n) == Up(f, p, n - 1);
        }
      }
  }

  /** `child` hangs directly below `parent` in `g`, and `g` differs from `f` in nothing else. */
  ghost predicate Attached(f: Arena, g: Arena, parent: nat, child: nat, slot: Option<int>)
    requires parent < |f| && child < |f| && parent != child
  {
    && |g| == |f|
    && g[child] == f[child].(root := Some(parent))
    && g[parent] == f[parent].(leaves := f[parent].leaves + [Leaf(slot, child)])
    && forall i :: 0 <= i < |f| && i != parent && i != child ==> g[i] == f[i]
  }

  /**
   * `parent.add_leaf(child, slot)`. The checks run in this order: the child
   * is the parent itself; the child already has a different parent; the
   * child lies on the parent's own chain of parents; an explicit slot is
   * outside the lines of the parent's snippet.
   */
  function AddLeaf(f: Arena, parent: nat, child: nat, slot: Option<int>): (r: Result<Arena, AttachError>)
    requires IsForest(f) && parent < |f| && child < |f|
    ensures r == Failure(SelfReference) <==> child == parent
    ensures r == Failure(MultipleRoot) <==>
      child != parent && f[child].root.Some? && f[child].root.value != parent
    ensures r == Failure(CircularReference) <==>
      && child != parent && f[child].root in {None, Some(parent)}
      && (exists n :: 1 <= n && Up(f, parent, n) == Some(child))
    ensures slot.Some? && !(1 <= slot.value <= NLines(f[parent].snippet)) ==> r.Failure?
    ensures r == Failure(SlotRange) <==>
      && child != parent && f[child].root in {None, Some(parent)}
      && !IsAncestor(f, child, parent) && !SlotInRange(f[parent], slot)
    ensures r.Success? <==>
      && child != parent && f[child].root in {None, Some(parent)}
      && !IsAncestor(f, child, parent) && SlotInRange(f[parent], slot)
    ensures r.Success? ==> Attached(f, r.value, parent, child, slot)
  {
    IsAncestorMeansUp(f, child, parent);
    if child == parent then
      Failure(SelfReference)
    else if f[child].root.Some? && f[child].root.value != parent then
      Failure(MultipleRoot)
    else if IsAncestor(f, child, parent) then
      Failure(CircularReference)
    else if !SlotInRange(f[parent], slot) then
      Failure(SlotRange)
    else
      var p := f[parent];
      var c := f[child];
      Success(f[child := c.(root := Some(parent))][parent := p.(leaves := p.leaves + [Leaf(slot, child)])])
  }

  /** The nodes at or below `top`: `top` itself and every node it is an ancestor of. */
  predicate InSubtree(f: Arena, top: nat, i: nat)
    requires Acyclic(f) && i < |f|
  {
    i == top || IsAncestor(f, top, i)
  }

  /**
   * Hanging a parentless `child` (with its whole subtree) below `parent`
   * keeps the arena acyclic, provided `parent` is not inside that subtree:
   * shifting the ranks of the subtree above the parent's rank is a ranking
   * of the new arena.
   */
  lemma {:induction false} AttachKeepsAcyclic(f: Arena, g: Arena, parent: nat, child: nat, slot: Option<int>)
    requires Closed(f) && Acyclic(f) && parent < |f| && child < |f| && parent != child
    requires f[child].root.None? && !IsAncestor(f, child, parent)
    requires Attached(f, g, parent, child, slot)
    ensures Acyclic(g)
  {
    var rank := RankOf(f);
    var shift := rank[parent] + 1;
    var rank' := seq(|f|, i requires 0 <= i < |f| => if InSubtree(f, child, i) then rank[i] + shift else rank[i]);
    forall i | 0 <= i < |g| && g[i].root.Some?
      ensures g[i].root.value < |g| && rank'[g[i].root.value] < rank'[i]
    {
      if i != child {
        var q := f[i].root.value;
        assert g[i].root == f[i].root;
        assert IsAncestor(f, child, i) == (q == child || IsAncestor(f, child, q));
      }
    }
    assert Ranked(g, rank');
  }

  /** `add_leaf` keeps the shape invariant of the collection. */
  lemma {:induction false} AddLeafKeepsForest(f: Arena, parent: nat, child: nat, slot: Option<int>)
    requires IsForest(f) && parent < |f| && child < |f|
    requires AddLeaf(f, parent, child, slot).Success?
    ensures IsForest(AddLeaf(f, parent, child, slot).value)
  {
    var g := AddLeaf(f, parent, child, slot).value;
    AttachKeepsClosed(f, g, parent, child, slot);
    AttachKeepsLinked(f, g, parent, child, slot);
    AttachKeepsSlots(f, g, parent, child, slot);
    if f[child].root.None? {
      AttachKeepsAcyclic(f, g, parent, child, slot);
    } else {
      assert Ranked(g, RankOf(f));
    }
  }

  /** An attachment adds only in-range positions. */
  lemma AttachKeepsClosed(f: Arena, g: Arena, parent: nat, child: nat, slot: Option<int>)
    requires Closed(f) && parent < |f| && child < |f| && parent != child
    requires Attached(f, g, parent, child, slot)
    ensures Closed(g)
  {
    forall i | 0 <= i < |g|
      ensures (g[i].root.Some? ==> g[i].root.value < |g|)
      ensures (forall c :: c in ChildrenOf(g[i]) ==> c < |g|)
    {
      if i == parent {
        assert ChildrenOf(g[i]) == ChildrenOf(f[i]) + [child];
      } else {
        assert g[i].leaves == f[i].leaves;
        assert ChildrenOf(g[i]) == ChildrenOf(f[i]);
      }
    }
  }

  /** An attachment of a child without another parent keeps both directions of the links in step. */
  lemma AttachKeepsLinked(f: Arena, g: Arena, parent: nat, child: nat, slot: Option<int>)
    requires Closed(f) && Linked(f) && parent < |f| && child < |f| && parent != child
    requires f[child].root in {None, Some(parent)}
    requires Attached(f, g, parent, child, slot) && Closed(g)
    ensures Linked(g)
  {
    forall i, c | 0 <= i < |g| && c in ChildrenOf(g[i])
      ensures g[c].root == Some(i)
    {
      if i == parent {
        assert ChildrenOf(g[i]) == ChildrenOf(f[i]) + [child];
      }
      if c != child && i != parent {
        assert c in ChildrenOf(f[i]);
      }
    }
    forall j | 0 <= j < |g| && g[j].root.Some?
      ensures j in ChildrenOf(g[g[j].root.value])
    {
      var q := g[j].root.value;
      if q == parent {
        assert ChildrenOf(g[q]) == ChildrenOf(f[q]) + [child];
      }
    }
  }

  /** An attachment whose slot passed the range check keeps every slot in range. */
  lemma AttachKeepsSlots(f: Arena, g: Arena, parent: nat, child: nat, slot: Option<int>)
    requires SlotsInRange(f) && parent < |f| && child < |f| && parent != child
    requires SlotInRange(f[parent], slot)
    requires Attached(f, g, parent, child, slot)
    ensures SlotsInRange(g)
  {
    forall i, k | 0 <= i < |g| && 0 <= k < |g[i].leaves|
      ensures SlotInRange(g[i], g[i].leaves[k].slot)
    {
      if i == parent && k < |f[i].leaves| {
        assert g[i].leaves[k] == f[i].leaves[k];
      }
    }
  }

  /** A node that some parent chain climbs through has a child. */
  lemma {:induction false} AncestorHasChild(f: Arena, a: nat, i: nat)
    requires Closed(f) && Linked(f) && Acyclic(f) && i < |f|
    requires IsAncestor(f, a, i)
    ensures a < |f| && ChildrenOf(f[a]) != []
    decreases RankOf(f)[i]
  {
    var q := f[i].root.value;
    assert i in ChildrenOf(f[q]);
    if q != a {
      AncestorHasChild(f, a, q);
    }
  }

  /** `f` with `child` hung below `parent` at the default slot. */
  function AttachDefault(f: Arena, parent: nat, child: nat): Arena
    requires parent < |f| && child < |f|
  {
    f[child := f[child].(root := Some(parent))][parent := f[parent].(leaves := f[parent].leaves + [Leaf(None, child)])]
  }

  /**
   * A node without parent and without children can always be hung below
   * any other node with the default slot: none of the four refusals applies.
   */
  lemma AttachFreshLeaf(f: Arena, parent: nat, child: nat)
    requires IsForest(f) && parent < |f| && child < |f| && parent != child
    requires f[child].root.None? && f[child].leaves == []
    ensures AddLeaf(f, parent, child, None) == Success(AttachDefault(f, parent, child))
    ensures IsForest(AttachDefault(f, parent, child))
  {
    if IsAncestor(f, child, parent) {
      AncestorHasChild(f, child, parent);
      assert false;
    }
    AddLeafKeepsForest(f, parent, child, None);
  }

  /**
   * Once `a.add_leaf(b)` succeeded, `b.add_leaf(a)` fails, and it is a
   * circular reference whenever `a` itself had no parent.
   */
  lemma ReverseAttachFails(f: Arena, a: nat, b: nat, s1: Option<int>, s2: Option<int>)
    requires IsForest(f) && a < |f| && b < |f|
    requires AddLeaf(f, a, b, s1).Success?
    ensures IsForest(AddLeaf(f, a, b, s1).value)
    ensures AddLeaf(AddLeaf(f, a, b, s1).value, b, a, s2).Failure?
    ensures f[a].root.None? ==>
      AddLeaf(AddLeaf(f, a, b, s1).value, b, a, s2) == Failure(CircularReference)
  {
    AddLeafKeepsForest(f, a, b, s1);
    var g := AddLeaf(f, a, b, s1).value;
    assert IsAncestor(g, a, b);
  }

  /** Once `a.add_leaf(b)` succeeded, any other node `c` attaching `b` is refused with a multiple-root error. */
  lemma SecondParentFails(f: Arena, a: nat, b: nat, c: nat, s1: Option<int>, s2: Option<int>)
    requires IsForest(f) && a < |f| && b < |f| && c < |f| && c != a && c != b
    requires AddLeaf(f, a, b, s1).Success?
    ensures IsForest(AddLeaf(f, a, b, s1).value)
    ensures AddLeaf(AddLeaf(f, a, b, s1).value, c, b, s2) == Failure(MultipleRoot)
  {
    AddLeafKeepsForest(f, a, b, s1);
  }
}

=== FILE: history.dfy ===
/**
 * The list of recently opened files: the most recent first, no file twice
 * when it started without repeats, and never more than `Limit` entries.
 */
module History {
  import opened Wrappers
  import opened Values

  /** `RecentlyOpenedFilesHistory.limit`. */
  const Limit: nat := 7

  /** No file appears twice. */
  predicate NoDuplicates(files: seq<string>) {
    forall i, j :: 0 <= i < j < |files| ==> files[i] != files[j]
  }

  /** The position of the first occurrence of `fn`: `files.index(fn)`. */
  function IndexOf(files: seq<string>, fn: string): (i: nat)
    requires fn in files
    ensures i < |files| && files[i] == fn
    ensures forall j :: 0 <= j < i ==> files[j] != fn
  {
    if files[0] == fn then 0 else 1 + IndexOf(files[1..], fn)
  }

  /** Entry `x` of the list with the first `fn` dropped, as a position of the original list. */
  function Shifted(files: seq<string>, fn: string, x: nat): nat {
    if fn in files && IndexOf(files, fn) <= x then x + 1 else x
  }

  /**
   * The first occurrence of `fn` dropped: `files.pop(files.index(fn))`
   * when `fn` is listed, the list unchanged otherwise. Entries before that
   * occurrence keep their place and the later ones move up by one.
   */
  function RemoveFirst(files: seq<string>, fn: string): (r: seq<string>)
    ensures |r| == if fn in files then |files| - 1 else |files|
    ensures forall x :: 0 <= x < |r| ==> Shifted(files, fn, x) < |files| && r[x] == files[Shifted(files, fn, x)]
  {
    if fn in files then
      var k := IndexOf(files, fn);
      files[..k] + files[k + 1..]
    else files
  }

  /** Dropping the first `fn` removes exactly one copy of `fn` when there is one, and nothing else. */
  lemma RemoveFirstMultiset(files: seq<string>, fn: string)
    ensures fn in files ==> multiset(RemoveFirst(files, fn)) + multiset{fn} == multiset(files)
    ensures fn !in files ==> RemoveFirst(files, fn) == files
  {
    if fn in files {
      var k := IndexOf(files, fn);
      assert files == files[..k] + [fn] + files[k + 1..];
    }
  }

  /**
   * `add(fn)`: move (or insert) `fn` to the front, then pop from the tail
   * until at most `Limit` remain.
   */
  function Add(files: seq<string>, fn: string): (r: seq<string>)
    ensures 1 <= |r| <= Limit
    ensures r[0] == fn
    ensures |r| == if |RemoveFirst(files, fn)| + 1 <= Limit then |RemoveFirst(files, fn)| + 1 else Limit
    ensures r == ([fn] + RemoveFirst(files, fn))[..|r|]
  {
    var moved := [fn] + RemoveFirst(files, fn);
    if |moved| <= Limit then moved else moved[..Limit]
  }

  /** `to_dict()`: the files under `"files"`. */
  function ToDict(files: seq<string>): (d: Value)
    ensures d.Dict? && KeysOf(d.entries) == ["files"]
    ensures d.entries[0].1.List? && |d.entries[0].1.items| == |files|
    ensures forall i :: 0 <= i < |files| ==> d.entries[0].1.items[i] == Str(files[i])
  {
    Dict([("files", List(seq(|files|, i requires 0 <= i < |files| => Str(files[i]))))])
  }

  /**
   * `RecentlyOpenedFilesHistory(**kwargs)`: the `files` entry, an empty
   * list when absent. Each entry must be a file name.
   */
  function FromKwargs(kwargs: seq<(string, Value)>): (r: Result<seq<string>, string>)
    ensures !HasKey(kwargs, "files") ==> r == Success([])
    ensures r.Success? && HasKey(kwargs, "files") ==> Lookup(kwargs, "files") == Some(ToDict(r.value).entries[0].1)
  {
    match Lookup(kwargs, "files")
    case None => Success([])
    case Some(v) =>
      if v.List? && forall i :: 0 <= i < |v.items| ==> v.items[i].Str? then
        var files := seq(|v.items|, i requires 0 <= i < |v.items| => v.items[i].s);
        assert v == ToDict(files).entries[0].1;
        Success(files)
      else Failure("files should be a list of file names")
  }

  /** The history read back from its record is the same list. */
  lemma FromKwargsToDict(files: seq<string>)
    ensures FromKwargs(ToDict(files).entries) == Success(files)
  {
    var e := ToDict(files).entries;
    var v := e[0].1;
    assert Lookup(e, "files") == Some(v);
    assert seq(|v.items|, i requires 0 <= i < |v.items| => v.items[i].s) == files;
  }

  /** Adding the file just added changes nothing. */
  lemma AddTwice(files: seq<string>, fn: string)
    ensures Add(Add(files, fn), fn) == Add(files, fn)
  {
    var once := Add(files, fn);
    assert IndexOf(once, fn) == 0;
    assert RemoveFirst(once, fn) == once[1..];
    assert [fn] + once[1..] == once;
  }

  /** A list without repeats keeps none after `add`. */
  lemma AddKeepsNoDuplicates(files: seq<string>, fn: string)
    requires NoDuplicates(files)
    ensures NoDuplicates(Add(files, fn))
  {
    var rest := RemoveFirst(files, fn);
    var moved := [fn] + rest;
    var r := Add(files, fn);
    RemoveFirstGone(files, fn);
    RemoveFirstKeepsNoDuplicates(files, fn);
    assert NoDuplicates(moved) by {
      forall a, b | 0 <= a < b < |moved| ensures moved[a] != moved[b] {
        assert moved[b] == rest[b - 1];
        if a > 0 {
          assert moved[a] == rest[a - 1];
        }
      }
    }
    assert r == moved[..|r|];
  }

  /** In a list without repeats, dropping the first `fn` drops every `fn`. */
  lemma RemoveFirstGone(files: seq<string>, fn: string)
    requires NoDuplicates(files)
    ensures fn !in RemoveFirst(files, fn)
  {
    var rest := RemoveFirst(files, fn);
    forall x | 0 <= x < |rest| ensures rest[x] != fn {
      assert rest[x] == files[Shifted(files, fn, x)];
    }
  }

  /** Dropping an entry adds no repeat. */
  lemma RemoveFirstKeepsNoDuplicates(files: seq<string>, fn: string)
    requires NoDuplicates(files)
    ensures NoDuplicates(RemoveFirst(files, fn))
  {
    var rest := RemoveFirst(files, fn);
    forall a, b | 0 <= a < b < |rest| ensures rest[a] != rest[b] {
      assert rest[a] == files[Shifted(files, fn, a)] && rest[b] == files[Shifted(files, fn, b)];
    }
  }

  /** Any two files after the first appear in the same order in the list before `add`. */
  lemma AddKeepsRelativeOrder(files: seq<string>, fn: string, a: nat, b: nat)
    requires 1 <= a < b < |Add(files, fn)|
    ensures exists ia, ib :: 0 <= ia < ib < |files| && files[ia] == Add(files, fn)[a] && files[ib] == Add(files, fn)[b]
  {
    var r := Add(files, fn);
    var rest := RemoveFirst(files, fn);
    assert r[a] == rest[a - 1] && r[b] == rest[b - 1];
    var ia, ib := Shifted(files, fn, a - 1), Shifted(files, fn, b - 1);
    assert 0 <= ia < ib < |files| && files[ia] == r[a] && files[ib] == r[b];
  }

  /**
   * When nothing has to be trimmed, `add` neither loses a file nor
   * invents one: the files listed afterwards are the old ones and `fn`.
   */
  lemma AddContents(files: seq<string>, fn: string, x: string)
    requires |RemoveFirst(files, fn)| < Limit
    ensures x in Add(files, fn) <==> x == fn || x in files
  {
    var rest := RemoveFirst(files, fn);
    assert Add(files, fn) == [fn] + rest;
    if fn in files {
      var k := IndexOf(files, fn);
      assert files == files[..k] + [fn] + files[k + 1..];
    }
  }

  /**
   * `len(history)` after `add(fn)`: one more when `fn` was not listed,
   * the same when it was, and never more than `Limit`.
   */
  lemma LenAfterAdd(files: seq<string>, fn: string)
    ensures var grown := if fn in files then |files| else |files| + 1;
      |Add(files, fn)| == if grown <= Limit then grown else Limit
  {
  }

  /** `clear()` then `add(fn)` leaves exactly `[fn]`. */
  lemma AddAfterClear(fn: string)
    ensures Add([], fn) == [fn] && |Add([], fn)| == 1
  {
  }
}

=== FILE: keys.dfy ===
/**
 * The keyboard patch as a pure state machine. A press or release event
 * carries a key code and the bitmask of the modifiers held with it; the
 * state is the four modifier flags of imgui's `io`, its `keys_down` table
 * and the flag remembering that a Ctrl text-edit shortcut is held. Key
 * codes, the modifier bits and the key tables come from the windowing
 * toolkit and are parameters here.
 */
module Keys {

  /** The modifier bitmask of an event. */
  type Mods = bv32

  /** The key codes and tables the handlers consult. */
  datatype KeyTable = KeyTable(
    lctrl: int, rctrl: int,
    lcommand: int, rcommand: int,
    lalt: int, ralt: int,
    lshift: int, rshift: int,
    modCtrl: Mods, modCommand: Mods, modAlt: Mods, modShift: Mods,
    /** `REVERSE_KEY_MAP`: toolkit key code to imgui key index. */
    reverseKeyMap: map<int, int>,
    /** `SPECIAL_KEY_SET`: the codes of A, C, V, X, Y and Z. */
    specialKeys: set<int>)

  /** `io`: the modifier flags and the `keys_down` table. */
  datatype IO = IO(keyCtrl: bool, keySuper: bool, keyAlt: bool, keyShift: bool, keysDown: map<int, bool>)

  /** The patched mixin's state: `io` and `_is_special_key_pressed`. */
  datatype KeyState = KeyState(io: IO, specialPressed: bool)

  /** `ASCII_CHAR_SET`: the codes of ASCII letters, digits and punctuation. */
  predicate IsAsciiChar(symbol: int) {
    33 <= symbol <= 126
  }

  /** `mods & bit` is truthy. */
  predicate Has(mods: Mods, bit: Mods) {
    mods & bit != 0
  }

  /** A modifier flag after a press: its key was pressed or its bit is held. */
  function PressFlag(isKey: bool, bitSet: bool): bool {
    isKey || bitSet
  }

  /** A modifier flag after a release: not its key, and held before or by bit. */
  function ReleaseFlag(prev: bool, isKey: bool, bitSet: bool): bool {
    !isKey && (bitSet || prev)
  }

  /** `_on_mods_press`: every flag is recomputed from the event alone. */
  function ModsPress(t: KeyTable, io: IO, symbol: int, mods: Mods): (r: IO)
    ensures r.keysDown == io.keysDown
  {
    io.(
      keyCtrl := PressFlag(symbol == t.lctrl || symbol == t.rctrl, Has(mods, t.modCtrl)),
      keySuper := PressFlag(symbol == t.lcommand || symbol == t.rcommand, Has(mods, t.modCommand)),
      keyAlt := PressFlag(symbol == t.lalt || symbol == t.ralt, Has(mods, t.modAlt)),
      keyShift := PressFlag(symbol == t.lshift || symbol == t.rshift, Has(mods, t.modShift)))
  }

  /** `_on_mods_release`: a released modifier key clears its flag, others keep or gain theirs. */
  function ModsRelease(t: KeyTable, io: IO, symbol: int, mods: Mods): (r: IO)
    ensures r.keysDown == io.keysDown
  {
    io.(
      keyCtrl := ReleaseFlag(io.keyCtrl, symbol == t.lctrl || symbol == t.rctrl, Has(mods, t.modCtrl)),
      keySuper := ReleaseFlag(io.keySuper, symbol == t.lcommand || symbol == t.rcommand, Has(mods, t.modCommand)),
      keyAlt := ReleaseFlag(io.keyAlt, symbol == t.lalt || symbol == t.ralt, Has(mods, t.modAlt)),
      keyShift := ReleaseFlag(io.keyShift, symbol == t.lshift || symbol == t.rshift, Has(mods, t.modShift)))
  }

  /** The four modifier flags of `io`. */
  function Flags(io: IO): (bool, bool, bool, bool) {
    (io.keyCtrl, io.keySuper, io.keyAlt, io.keyShift)
  }

  /**
   * The key half of `on_key_press`, given the Ctrl flag already updated: a
   * special key with Ctrl held marks its imgui index and raises the
   * shortcut flag; without Ctrl it marks its own code; another mapped key
   * marks its imgui index, an unmapped ASCII character its code, and
   * anything else nothing.
   */
  function PressKey(t: KeyTable, keysDown: map<int, bool>, special: bool, ctrl: bool, symbol: int): (r: (map<int, bool>, bool))
    ensures r.1 == (special || (symbol in t.reverseKeyMap && symbol in t.specialKeys && ctrl))
  {
    if symbol in t.reverseKeyMap then
      if symbol in t.specialKeys then
        if ctrl then (keysDown[t.reverseKeyMap[symbol] := true], true)
        else (keysDown[symbol := true], special)
      else (keysDown[t.reverseKeyMap[symbol] := true], special)
    else if IsAsciiChar(symbol) then (keysDown[symbol := true], special)
    else (keysDown, special)
  }

  /**
   * The key half of `on_key_release`: the entry to clear is chosen by the
   * shortcut flag rather than by Ctrl, so a shortcut is cleared whichever
   * of its keys is let go last.
   */
  function ReleaseKey(t: KeyTable, keysDown: map<int, bool>, special: bool, symbol: int): (r: (map<int, bool>, bool))
    ensures r.1 == (special && !(symbol in t.reverseKeyMap && symbol in t.specialKeys))
  {
    if symbol in t.reverseKeyMap then
      if symbol in t.specialKeys then
        if special then (keysDown[t.reverseKeyMap[symbol] := false], false)
        else (keysDown[symbol := false], special)
      else (keysDown[t.reverseKeyMap[symbol] := false], special)
    else if IsAsciiChar(symbol) then (keysDown[symbol := false], special)
    else (keysDown, special)
  }

  /** `on_key_press`: the modifier flags first, so a special key sees the Ctrl of its own event. */
  function KeyPress(t: KeyTable, s: KeyState, symbol: int, mods: Mods): (r: KeyState)
    ensures Flags(r.io) == Flags(ModsPress(t, s.io, symbol, mods))
  {
    var io := ModsPress(t, s.io, symbol, mods);
    var (keysDown, special) := PressKey(t, io.keysDown, s.specialPressed, io.keyCtrl, symbol);
    KeyState(io.(keysDown := keysDown), special)
  }

  /** `on_key_release`: the key first, then the modifier flags. */
  function KeyRelease(t: KeyTable, s: KeyState, symbol: int, mods: Mods): (r: KeyState)
    ensures Flags(r.io) == Flags(ModsRelease(t, s.io, symbol, mods))
  {
    var (keysDown, special) := ReleaseKey(t, s.io.keysDown, s.specialPressed, symbol);
    KeyState(ModsRelease(t, s.io.(keysDown := keysDown), symbol, mods), special)
  }

  /** One row of a truth table: previous flag X, key Y, bit Z, next flag X'. */
  datatype Row = Row(x: bool, y: bool, z: bool, next: bool)

  /** The table of `_on_mods_press`. */
  const PressTable: seq<Row> := [
    Row(false, false, false, false),
    Row(false, false, true, true),
    Row(false, true, false, true),
    Row(false, true, true, true),
    Row(true, false, false, false),
    Row(true, false, true, true),
    Row(true, true, false, true),
    Row(true, true, true, true)
  ]

  /** The table of `_on_mods_release`. */
  const ReleaseTable: seq<Row> := [
    Row(false, false, false, false),
    Row(false, false, true, true),
    Row(false, true, false, false),
    Row(false, true, true, false),
    Row(true, false, false, true),
    Row(true, false, true, true),
    Row(true, true, false, false),
    Row(true, true, true, false)
  ]

  /** The row of a table for the inputs X, Y, Z. */
  function RowIndex(x: bool, y: bool, z: bool): (i: nat)
    ensures i < 8
  {
    (if x then 4 else 0) + (if y then 2 else 0) + (if z then 1 else 0)
  }

  /** Every flag `_on_mods_press` writes is the table's X' for its X, Y and Z. */
  lemma ModsPressFollowsTable(t: KeyTable, io: IO, symbol: int, mods: Mods)
    ensures var r := ModsPress(t, io, symbol, mods);
      && r.keyCtrl == PressTable[RowIndex(io.keyCtrl, symbol == t.lctrl || symbol == t.rctrl, Has(mods, t.modCtrl))].next
      && r.keySuper == PressTable[RowIndex(io.keySuper, symbol == t.lcommand || symbol == t.rcommand, Has(mods, t.modCommand))].next
      && r.keyAlt == PressTable[RowIndex(io.keyAlt, symbol == t.lalt || symbol == t.ralt, Has(mods, t.modAlt))].next
      && r.keyShift == PressTable[RowIndex(io.keyShift, symbol == t.lshift || symbol == t.rshift, Has(mods, t.modShift))].next
  {
    PressFlagIsTable();
  }

  /** `PressFlag` agrees with every row of the press table. */
  lemma PressFlagIsTable()
    ensures forall i :: 0 <= i < 8 ==> PressTable[i] == Row(PressTable[i].x, PressTable[i].y, PressTable[i].z, PressFlag(PressTable[i].y, PressTable[i].z))
    ensures forall x, y, z :: PressTable[RowIndex(x, y, z)] == Row(x, y, z, PressTable[RowIndex(x, y, z)].next)
  {
  }

  /** Every flag `_on_mods_release` writes is the table's X' for its X, Y and Z. */
  lemma ModsReleaseFollowsTable(t: KeyTable, io: IO, symbol: int, mods: Mods)
    ensures var r := ModsRelease(t, io, symbol, mods);
      && r.keyCtrl == ReleaseTable[RowIndex(io.keyCtrl, symbol == t.lctrl || symbol == t.rctrl, Has(mods, t.modCtrl))].next
      && r.keySuper == ReleaseTable[RowIndex(io.keySuper, symbol == t.lcommand || symbol == t.rcommand, Has(mods, t.modCommand))].next
      && r.keyAlt == ReleaseTable[RowIndex(io.keyAlt, symbol == t.lalt || symbol == t.ralt, Has(mods, t.modAlt))].next
      && r.keyShift == ReleaseTable[RowIndex(io.keyShift, symbol == t.lshift || symbol == t.rshift, Has(mods, t.modShift))].next
  {
    ReleaseFlagIsTable();
  }

  /** `ReleaseFlag` agrees with every row of the release table. */
  lemma ReleaseFlagIsTable()
    ensures forall i :: 0 <= i < 8 ==> ReleaseTable[i] == Row(ReleaseTable[i].x, ReleaseTable[i].y, ReleaseTable[i].z, ReleaseFlag(ReleaseTable[i].x, ReleaseTable[i].y, ReleaseTable[i].z))
    ensures forall x, y, z :: ReleaseTable[RowIndex(x, y, z)] == Row(x, y, z, ReleaseTable[RowIndex(x, y, z)].next)
  {
  }

  /** Releasing a modifier key clears its flag, whatever the bitmask says. */
  lemma ReleaseClearsModifier(t: KeyTable, s: KeyState, symbol: int, mods: Mods)
    ensures var r := KeyRelease(t, s, symbol, mods).io;
      && (symbol == t.lctrl || symbol == t.rctrl ==> !r.keyCtrl)
      && (symbol == t.lcommand || symbol == t.rcommand ==> !r.keySuper)
      && (symbol == t.lalt || symbol == t.ralt ==> !r.keyAlt)
      && (symbol == t.lshift || symbol == t.rshift ==> !r.keyShift)
  {
  }

  /** On press no flag depends on any previous flag or on `keys_down`. */
  lemma PressForgetsFlags(t: KeyTable, a: IO, b: IO, symbol: int, mods: Mods)
    ensures Flags(ModsPress(t, a, symbol, mods)) == Flags(ModsPress(t, b, symbol, mods))
  {
  }

  /**
   * On release the flags update independently: each depends on its own
   * previous value, key pair and bit, and on no other flag.
   */
  lemma ReleaseFlagsIndependent(t: KeyTable, a: IO, b: IO, symbol: int, mods: Mods)
    ensures a.keyCtrl == b.keyCtrl ==> ModsRelease(t, a, symbol, mods).keyCtrl == ModsRelease(t, b, symbol, mods).keyCtrl
    ensures a.keySuper == b.keySuper ==> ModsRelease(t, a, symbol, mods).keySuper == ModsRelease(t, b, symbol, mods).keySuper
    ensures a.keyAlt == b.keyAlt ==> ModsRelease(t, a, symbol, mods).keyAlt == ModsRelease(t, b, symbol, mods).keyAlt
    ensures a.keyShift == b.keyShift ==> ModsRelease(t, a, symbol, mods).keyShift == ModsRelease(t, b, symbol, mods).keyShift
  {
  }

  /**
   * A special key pressed while its event holds Ctrl marks the imgui index
   * and raises the shortcut flag, even if no Ctrl press was seen before.
   */
  lemma SpecialPressWithCtrl(t: KeyTable, s: KeyState, symbol: int, mods: Mods)
    requires symbol in t.reverseKeyMap && symbol in t.specialKeys
    requires Has(mods, t.modCtrl)
    ensures var r := KeyPress(t, s, symbol, mods);
      && r.io.keysDown == s.io.keysDown[t.reverseKeyMap[symbol] := true]
      && r.specialPressed
  {
  }

  /** Without Ctrl a special key marks its own code and leaves the shortcut flag alone. */
  lemma SpecialPressWithoutCtrl(t: KeyTable, s: KeyState, symbol: int, mods: Mods)
    requires symbol in t.reverseKeyMap && symbol in t.specialKeys
    requires !Has(mods, t.modCtrl) && symbol != t.lctrl && symbol != t.rctrl
    ensures var r := KeyPress(t, s, symbol, mods);
      && r.io.keysDown == s.io.keysDown[symbol := true]
      && r.specialPressed == s.specialPressed
  {
  }

  /**
   * Releasing a special key clears the imgui index and lowers the flag
   * while the shortcut flag is up, and clears its own code otherwise.
   */
  lemma SpecialRelease(t: KeyTable, s: KeyState, symbol: int, mods: Mods)
    requires symbol in t.reverseKeyMap && symbol in t.specialKeys
    ensures var r := KeyRelease(t, s, symbol, mods);
      && r.io.keysDown == (if s.specialPressed then s.io.keysDown[t.reverseKeyMap[symbol] := false]
                           else s.io.keysDown[symbol := false])
      && !r.specialPressed
  {
  }

  /** A key neither mapped nor an ASCII character touches neither `keys_down` nor the flag. */
  lemma UnknownKeyIgnored(t: KeyTable, s: KeyState, symbol: int, mods: Mods)
    requires symbol !in t.reverseKeyMap && !IsAsciiChar(symbol)
    ensures KeyPress(t, s, symbol, mods).io.keysDown == s.io.keysDown
    ensures KeyPress(t, s, symbol, mods).specialPressed == s.specialPressed
    ensures KeyRelease(t, s, symbol, mods).io.keysDown == s.io.keysDown
    ensures KeyRelease(t, s, symbol, mods).specialPressed == s.specialPressed
  {
  }

  /** The entry a key other than a special one sets and clears. */
  function PlainEntry(t: KeyTable, symbol: int): int {
    if symbol in t.reverseKeyMap then t.reverseKeyMap[symbol] else symbol
  }

  /**
   * A mapped non-special key, or an unmapped ASCII character, is set by
   * its press and cleared by its release at the same entry; nothing else
   * of `keys_down`, and not the flag, changes.
   */
  lemma PressReleasePair(t: KeyTable, s: KeyState, symbol: int, m1: Mods, m2: Mods)
    requires symbol in t.reverseKeyMap ==> symbol !in t.specialKeys
    requires symbol in t.reverseKeyMap || IsAsciiChar(symbol)
    ensures var pressed := KeyPress(t, s, symbol, m1);
      && pressed.io.keysDown == s.io.keysDown[PlainEntry(t, symbol) := true]
      && KeyRelease(t, pressed, symbol, m2).io.keysDown == s.io.keysDown[PlainEntry(t, symbol) := false]
      && KeyRelease(t, pressed, symbol, m2).specialPressed == s.specialPressed
  {
  }

  /**
   * The release order of a Ctrl shortcut does not matter: after a special
   * key is pressed with Ctrl, letting go of it and of a non-special key in
   * either order clears the shortcut's imgui index and lowers the flag.
   */
  lemma ShortcutReleaseOrder(t: KeyTable, s: KeyState, symbol: int, other: int, m: Mods, m1: Mods, m2: Mods)
    requires symbol in t.reverseKeyMap && symbol in t.specialKeys && other !in t.specialKeys
    requires Has(m, t.modCtrl)
    requires other in t.reverseKeyMap ==> t.reverseKeyMap[other] != t.reverseKeyMap[symbol]
    requires other !in t.reverseKeyMap ==> other != t.reverseKeyMap[symbol]
    ensures var held := KeyPress(t, s, symbol, m);
      var keyFirst := KeyRelease(t, KeyRelease(t, held, symbol, m1), other, m2);
      var otherFirst := KeyRelease(t, KeyRelease(t, held, other, m2), symbol, m1);
      && keyFirst.io.keysDown == otherFirst.io.keysDown
      && t.reverseKeyMap[symbol] in keyFirst.io.keysDown && !keyFirst.io.keysDown[t.reverseKeyMap[symbol]]
      && !keyFirst.specialPressed && !otherFirst.specialPressed
  {
  }

  /**
   * Two Ctrl shortcuts held at once share the one flag: after Ctrl+A, then
   * Ctrl+C, letting go of A lowers the flag, so letting go of C clears its
   * raw code and the imgui entry of C stays down.
   */
  lemma OverlappingShortcutsStick(t: KeyTable, s: KeyState, a: int, c: int, m: Mods, m1: Mods, m2: Mods)
    requires a in t.reverseKeyMap && a in t.specialKeys
    requires c in t.reverseKeyMap && c in t.specialKeys
    requires t.reverseKeyMap[a] != t.reverseKeyMap[c] && c != t.reverseKeyMap[c]
    requires Has(m, t.modCtrl)
    ensures var pressed := KeyPress(t, KeyPress(t, s, a, m), c, m);
      var released := KeyRelease(t, KeyRelease(t, pressed, a, m1), c, m2);
      && pressed.io.keysDown[t.reverseKeyMap[c]]
      && t.reverseKeyMap[c] in released.io.keysDown && released.io.keysDown[t.reverseKeyMap[c]]
  {
  }

  /**
   * The evidently intended state: instead of one flag, the set of special
   * keys whose press came with Ctrl, so each release knows which entry its
   * own press set.
   */
  datatype HeldState = HeldState(io: IO, held: set<int>)

  /** The key half of a press with the per-key record. */
  function PressKeyHeld(t: KeyTable, keysDown: map<int, bool>, held: set<int>, ctrl: bool, symbol: int): (r: (map<int, bool>, set<int>))
    ensures r.1 == if symbol in t.reverseKeyMap && symbol in t.specialKeys && ctrl then held + {symbol} else held
  {
    if symbol in t.reverseKeyMap then
      if symbol in t.specialKeys then
        if ctrl then (keysDown[t.reverseKeyMap[symbol] := true], held + {symbol})
        else (keysDown[symbol := true], held)
      else (keysDown[t.reverseKeyMap[symbol] := true], held)
    else if IsAsciiChar(symbol) then (keysDown[symbol := true], held)
    else (keysDown, held)
  }

  /** The key half of a release with the per-key record. */
  function ReleaseKeyHeld(t: KeyTable, keysDown: map<int, bool>, held: set<int>, symbol: int): (r: (map<int, bool>, set<int>))
    ensures r.1 == if symbol in t.reverseKeyMap && symbol in t.specialKeys then held - {symbol} else held
  {
    if symbol in t.reverseKeyMap then
      if symbol in t.specialKeys then
        if symbol in held then (keysDown[t.reverseKeyMap[symbol] := false], held - {symbol})
        else (keysDown[symbol := false], held)
      else (keysDown[t.reverseKeyMap[symbol] := false], held)
    else if IsAsciiChar(symbol) then (keysDown[symbol := false], held)
    else (keysDown, held)
  }

  /** `on_key_press` with the per-key record. */
  function HeldKeyPress(t: KeyTable, s: HeldState, symbol: int, mods: Mods): (r: HeldState)
    ensures Flags(r.io) == Flags(ModsPress(t, s.io, symbol, mods))
  {
    var io := ModsPress(t, s.io, symbol, mods);
    var (keysDown, held) := PressKeyHeld(t, io.keysDown, s.held, io.keyCtrl, symbol);
    HeldState(io.(keysDown := keysDown), held)
  }

  /** `on_key_release` with the per-key record. */
  function HeldKeyRelease(t: KeyTable, s: HeldState, symbol: int, mods: Mods): (r: HeldState)
    ensures Flags(r.io) == Flags(ModsRelease(t, s.io, symbol, mods))
  {
    var (keysDown, held) := ReleaseKeyHeld(t, s.io.keysDown, s.held, symbol);
    HeldState(ModsRelease(t, s.io.(keysDown := keysDown), symbol, mods), held)
  }

  /** With at most one shortcut in play the per-key record behaves as the flag does. */
  lemma HeldAgreesWithFlag(t: KeyTable, s: KeyState, h: HeldState, symbol: int, mods: Mods)
    requires h.io == s.io
    requires h.held == {} && !s.specialPressed
    ensures var p := KeyPress(t, s, symbol, mods);
      var q := HeldKeyPress(t, h, symbol, mods);
      && q.io == p.io && (q.held != {} <==> p.specialPressed)
      && (p.specialPressed ==> q.held == {symbol})
  {
  }

  /** Releasing a key whose press came with Ctrl clears the imgui entry that press set. */
  lemma HeldReleaseClearsShortcut(t: KeyTable, h: HeldState, symbol: int, mods: Mods)
    requires symbol in t.reverseKeyMap && symbol in t.specialKeys && symbol in h.held
    ensures var r := HeldKeyRelease(t, h, symbol, mods);
      && t.reverseKeyMap[symbol] in r.io.keysDown && !r.io.keysDown[t.reverseKeyMap[symbol]]
      && symbol !in r.held
  {
  }

  /** Events on other keys never forget that a key's press came with Ctrl. */
  lemma HeldSurvivesOtherKeys(t: KeyTable, h: HeldState, symbol: int, other: int, mods: Mods)
    requires symbol in h.held && other != symbol
    ensures symbol in HeldKeyPress(t, h, other, mods).held
    ensures symbol in HeldKeyRelease(t, h, other, mods).held
  {
  }

  /** The overlapping shortcuts of `OverlappingShortcutsStick` leave no entry down with the per-key record. */
  lemma OverlappingShortcutsRelease(t: KeyTable, h: HeldState, a: int, c: int, m: Mods, m1: Mods, m2: Mods)
    requires a in t.reverseKeyMap && a in t.specialKeys
    requires c in t.reverseKeyMap && c in t.specialKeys
    requires a != c && t.reverseKeyMap[a] != t.reverseKeyMap[c]
    requires Has(m, t.modCtrl)
    ensures var pressed := HeldKeyPress(t, HeldKeyPress(t, h, a, m), c, m);
      var released := HeldKeyRelease(t, HeldKeyRelease(t, pressed, a, m1), c, m2);
      && t.reverseKeyMap[a] in released.io.keysDown && !released.io.keysDown[t.reverseKeyMap[a]]
      && t.reverseKeyMap[c] in released.io.keysDown && !released.io.keysDown[t.reverseKeyMap[c]]
  {
    var pressed := HeldKeyPress(t, HeldKeyPress(t, h, a, m), c, m);
    assert a in pressed.held && c in pressed.held;
    var mid := HeldKeyRelease(t, pressed, a, m1);
    assert c in mid.held;
  }
}

=== FILE: layers.dfy ===
/**
 * `NodeCollection.resolve_tree`: the breadth-first layers of every tree of
 * the forest, and the orphans, nodes with neither parent nor children.
 */
module Layers {
  import opened Wrappers
  import opened Forest

  /** Parent steps from `i` up to the top of its tree. */
  function Depth(f: Arena, i: nat): nat
    requires Acyclic(f) && i < |f|
    decreases RankOf(f)[i]
  {
    match f[i].root
    case None => 0
    case Some(p) => 1 + Depth(f, p)
  }

  /** The parentless node at the top of the tree holding `i`. */
  function TopOf(f: Arena, i: nat): (t: nat)
    requires Acyclic(f) && i < |f|
    ensures t < |f| && f[t].root.None?
    decreases RankOf(f)[i]
  {
    match f[i].root
    case None => i
    case Some(p) => TopOf(f, p)
  }

  /** The largest depth among the first `n` nodes. */
  ghost function MaxDepth(f: Arena, n: nat): (m: nat)
    requires Acyclic(f) && n <= |f|
    ensures forall i :: 0 <= i < n ==> Depth(f, i) <= m
  {
    if n == 0 then 0
    else
      var m := MaxDepth(f, n - 1);
      if Depth(f, n - 1) > m then Depth(f, n - 1) else m
  }

  /** A node that starts a tree: no parent, at least one child. */
  predicate IsTreeRoot(n: Node) {
    n.root.None? && n.leaves != []
  }

  /** A node with neither parent nor children. */
  predicate IsOrphan(n: Node) {
    n.root.None? && n.leaves == []
  }

  /** The children of every node of `layer`, parent after parent, each parent's in attachment order. */
  function NextLayer(f: Arena, layer: seq<nat>): seq<nat>
    requires forall x :: x in layer ==> x < |f|
  {
    if layer == [] then []
    else
      var init := layer[..|layer| - 1];
      assert forall x :: x in init ==> x in layer;
      assert layer[|layer| - 1] in layer;
      NextLayer(f, init) + ChildrenOf(f[layer[|layer| - 1]])
  }

  /** A member of the next layer is a child of some member of this one. */
  lemma {:induction false} NextLayerMembers(f: Arena, layer: seq<nat>, c: nat)
    requires forall x :: x in layer ==> x < |f|
    ensures c in NextLayer(f, layer) <==> exists x :: x in layer && c in ChildrenOf(f[x])
  {
    if layer != [] {
      var init := layer[..|layer| - 1];
      assert forall x :: x in init ==> x in layer;
      NextLayerMembers(f, init, c);
      if c in NextLayer(f, layer) && c !in NextLayer(f, init) {
        assert layer[|layer| - 1] in layer;
      }
      if exists x :: x in layer && c in ChildrenOf(f[x]) {
        var x :| x in layer && c in ChildrenOf(f[x]);
        if x != layer[|layer| - 1] {
          assert x in init;
        }
      }
    }
  }

  /** Every node of a layer lies at depth `d` of the tree topped by `t`. */
  ghost predicate AtDepth(f: Arena, layer: seq<nat>, t: nat, d: nat)
    requires Acyclic(f)
  {
    forall x :: x in layer ==> x < |f| && Depth(f, x) == d && TopOf(f, x) == t
  }

  /** The children of a layer at depth `d` lie at depth `d + 1` of the same tree. */
  lemma NextLayerDeeper(f: Arena, layer: seq<nat>, t: nat, d: nat)
    requires IsForest(f) && AtDepth(f, layer, t, d)
    ensures AtDepth(f, NextLayer(f, layer), t, d + 1)
  {
    forall c | c in NextLayer(f, layer)
      ensures c < |f| && Depth(f, c) == d + 1 && TopOf(f, c) == t
    {
      NextLayerMembers(f, layer, c);
      var x :| x in layer && c in ChildrenOf(f[x]);
      assert f[c].root == Some(x);
    }
  }

  /**
   * The layers from `layer` down: `layer` itself, then the next layer, and
   * so on until a layer comes out empty. Every layer is one level deeper in
   * the same tree, so there are at most as many as the deepest node allows.
   */
  function LayersFrom(f: Arena, layer: seq<nat>, ghost t: nat, ghost d: nat): seq<seq<nat>>
    requires IsForest(f) && AtDepth(f, layer, t, d)
    decreases MaxDepth(f, |f|) + 1 - d
  {
    if layer == [] then []
    else
      NextLayerDeeper(f, layer, t, d);
      assert layer[0] in layer;
      [layer] + LayersFrom(f, NextLayer(f, layer), t, d + 1)
  }

  /** The breadth-first layers of the tree topped by `r`. */
  function Tree(f: Arena, r: nat): seq<seq<nat>>
    requires IsForest(f) && r < |f| && f[r].root.None?
  {
    assert AtDepth(f, [r], r, 0);
    LayersFrom(f, [r], r, 0)
  }

  /** The walk stops exactly when it reaches an empty layer, and otherwise starts where it was asked to. */
  lemma LayersFromHead(f: Arena, layer: seq<nat>, t: nat, d: nat)
    requires IsForest(f) && AtDepth(f, layer, t, d)
    ensures layer == [] <==> LayersFrom(f, layer, t, d) == []
    ensures layer != [] ==> LayersFrom(f, layer, t, d)[0] == layer
  {
  }

  /**
   * The layers are a chain: none is empty, the `k`-th lies at depth
   * `d + k`, each next one holds the children of the one before and the
   * last has no children.
   */
  lemma {:induction false} LayersFromChain(f: Arena, layer: seq<nat>, t: nat, d: nat, k: nat)
    requires IsForest(f) && AtDepth(f, layer, t, d)
    requires k < |LayersFrom(f, layer, t, d)|
    ensures var ls := LayersFrom(f, layer, t, d);
      && ls[k] != [] && AtDepth(f, ls[k], t, d + k)
      && (k + 1 < |ls| ==> ls[k + 1] == NextLayer(f, ls[k]))
      && (k + 1 == |ls| ==> NextLayer(f, ls[k]) == [])
    decreases k
  {
    NextLayerDeeper(f, layer, t, d);
    assert layer[0] in layer;
    var next := NextLayer(f, layer);
    var rest := LayersFrom(f, next, t, d + 1);
    assert LayersFrom(f, layer, t, d) == [layer] + rest;
    LayersFromHead(f, next, t, d + 1);
    if k > 0 {
      LayersFromChain(f, next, t, d + 1, k - 1);
    }
  }

  /**
   * A node is in layer `k` of the tree topped by `r` exactly when `r` is
   * the top of its tree and it lies `k` parent steps below it.
   */
  lemma {:induction false} TreeMembers(f: Arena, r: nat, x: nat, k: nat)
    requires IsForest(f) && r < |f| && f[r].root.None? && x < |f|
    ensures (k < |Tree(f, r)| && x in Tree(f, r)[k]) <==> (TopOf(f, x) == r && Depth(f, x) == k)
    decreases k
  {
    var ls := Tree(f, r);
    assert AtDepth(f, [r], r, 0);
    LayersFromHead(f, [r], r, 0);
    if k < |ls| {
      LayersFromChain(f, [r], r, 0, k);
    }
    if TopOf(f, x) == r && Depth(f, x) == k && k > 0 {
      var p := f[x].root.value;
      TreeMembers(f, r, p, k - 1);
      LayersFromChain(f, [r], r, 0, k - 1);
      assert x in ChildrenOf(f[p]);
      NextLayerMembers(f, ls[k - 1], x);
    }
  }

  /** The orphans among the first `n` nodes, in collection order. */
  function OrphansUpTo(f: Arena, n: nat): (os: seq<nat>)
    requires n <= |f|
    ensures forall x :: x in os <==> 0 <= x < n && IsOrphan(f[x])
    ensures forall j1, j2 :: 0 <= j1 < j2 < |os| ==> os[j1] < os[j2]
  {
    if n == 0 then []
    else
      var prev := OrphansUpTo(f, n - 1);
      assert forall j :: 0 <= j < |prev| ==> prev[j] in prev;
      if IsOrphan(f[n - 1]) then prev + [n - 1] else prev
  }

  /** The tree roots among the first `n` nodes, in collection order. */
  function TreeRootsUpTo(f: Arena, n: nat): (rs: seq<nat>)
    requires n <= |f|
    ensures forall x :: x in rs <==> 0 <= x < n && IsTreeRoot(f[x])
    ensures forall j1, j2 :: 0 <= j1 < j2 < |rs| ==> rs[j1] < rs[j2]
  {
    if n == 0 then []
    else
      var prev := TreeRootsUpTo(f, n - 1);
      assert forall j :: 0 <= j < |prev| ==> prev[j] in prev;
      if IsTreeRoot(f[n - 1]) then prev + [n - 1] else prev
  }

  /** The layers of a tree start with the layer holding just its root. */
  lemma TreeStartsAtRoot(f: Arena, r: nat)
    requires IsForest(f) && r < |f| && f[r].root.None?
    ensures Tree(f, r) != [] && Tree(f, r)[0] == [r]
  {
    assert AtDepth(f, [r], r, 0);
    LayersFromHead(f, [r], r, 0);
  }

  /**
   * `resolve_tree`: the layers of the tree of every tree root, in
   * collection order, and the orphans, in collection order.
   */
  function ResolveTree(f: Arena): (r: (seq<seq<seq<nat>>>, seq<nat>))
    requires IsForest(f)
    ensures forall x :: x in r.1 <==> 0 <= x < |f| && IsOrphan(f[x])
    ensures forall j1, j2 :: 0 <= j1 < j2 < |r.1| ==> r.1[j1] < r.1[j2]
    ensures |r.0| == |TreeRootsUpTo(f, |f|)|
    ensures forall t :: 0 <= t < |r.0| ==>
      var root := TreeRootsUpTo(f, |f|)[t];
      root < |f| && f[root].root.None? && r.0[t] == Tree(f, root)
  {
    var roots := TreeRootsUpTo(f, |f|);
    assert forall t :: 0 <= t < |roots| ==> roots[t] in roots;
    (seq(|roots|, t requires 0 <= t < |roots| => Tree(f, roots[t])), OrphansUpTo(f, |f|))
  }

  /** A node with a parent belongs to a tree whose top has children. */
  lemma {:induction false} TopOfChildHasLeaves(f: Arena, x: nat)
    requires IsForest(f) && x < |f| && f[x].root.Some?
    ensures IsTreeRoot(f[TopOf(f, x)])
    decreases RankOf(f)[x]
  {
    var p := f[x].root.value;
    if f[p].root.None? {
      assert x in ChildrenOf(f[p]);
    } else {
      TopOfChildHasLeaves(f, p);
    }
  }

  /**
   * `resolve_tree` places every node: an orphan is in no
   * tree, and any other node is in the tree of the top of its parent chain,
   * at the layer given by its number of parent steps.
   */
  lemma EveryNodePlaced(f: Arena, x: nat)
    requires IsForest(f) && x < |f|
    ensures IsOrphan(f[x]) ==>
      forall r, k :: 0 <= r < |f| && IsTreeRoot(f[r]) && 0 <= k < |Tree(f, r)| ==> x !in Tree(f, r)[k]
    ensures !IsOrphan(f[x]) ==>
      && IsTreeRoot(f[TopOf(f, x)])
      && Depth(f, x) < |Tree(f, TopOf(f, x))|
      && x in Tree(f, TopOf(f, x))[Depth(f, x)]
  {
    if IsOrphan(f[x]) {
      forall r, k | 0 <= r < |f| && IsTreeRoot(f[r]) && 0 <= k < |Tree(f, r)|
        ensures x !in Tree(f, r)[k]
      {
        TreeMembers(f, r, x, k);
      }
    } else {
      if f[x].root.Some? {
        TopOfChildHasLeaves(f, x);
      }
      TreeMembers(f, TopOf(f, x), x, Depth(f, x));
    }
  }
}

=== FILE: links.dfy ===
/**
 * `NodeCollection.resolve_links` and `resolve_index_links`: one link per
 * attachment, nodes in collection order and each node's leaves in
 * attachment order; `leaf_slot` tells apart the children hanging from the
 * same line of the parent.
 */
module Links {
  import opened Forest

  /** `NodeIndexLink`: a link between two collection positions. */
  datatype IndexLink = IndexLink(root: nat, rootSlot: int, leaf: nat, leafSlot: nat)

  /** `NodeLink`: a link between two nodes. */
  datatype NodeLink = NodeLink(root: Node, rootSlot: int, leaf: Node, leafSlot: nat)

  /** How many of `leaves` resolve to root slot `s`. */
  function CountSlot(leaves: seq<Leaf>, s: int): (n: nat)
    ensures n <= |leaves|
  {
    if leaves == [] then 0
    else CountSlot(leaves[..|leaves| - 1], s) + (if RootSlot(leaves[|leaves| - 1]) == s then 1 else 0)
  }

  /** The `leaf_slot` of the `k`-th leaf: how many earlier leaves share its root slot. */
  function LeafSlot(leaves: seq<Leaf>, k: nat): nat
    requires k < |leaves|
  {
    CountSlot(leaves[..k], RootSlot(leaves[k]))
  }

  /** The links of node `i`, one per leaf, in attachment order. */
  function NodeIndexLinks(f: Arena, i: nat): (ls: seq<IndexLink>)
    requires i < |f|
    ensures |ls| == |f[i].leaves|
  {
    var leaves := f[i].leaves;
    seq(|leaves|, k requires 0 <= k < |leaves| =>
      IndexLink(i, RootSlot(leaves[k]), leaves[k].child, LeafSlot(leaves, k)))
  }

  /** The links of the first `n` nodes, in collection order. */
  function IndexLinksUpTo(f: Arena, n: nat): seq<IndexLink>
    requires n <= |f|
  {
    if n == 0 then [] else IndexLinksUpTo(f, n - 1) + NodeIndexLinks(f, n - 1)
  }

  /** `resolve_index_links` as a single running count per root slot, node by node. */
  method ResolveIndexLinks(f: Arena) returns (links: seq<IndexLink>)
    ensures links == IndexLinksUpTo(f, |f|)
  {
    links := [];
    var i := 0;
    while i < |f|
      invariant 0 <= i <= |f|
      invariant links == IndexLinksUpTo(f, i)
    {
      var leaves := f[i].leaves;
      var seen: map<int, nat> := map[];
      var nodeLinks := [];
      var k := 0;
      while k < |leaves|
        invariant 0 <= k <= |leaves|
        invariant nodeLinks == NodeIndexLinks(f, i)[..k]
        invariant forall s :: CountSlot(leaves[..k], s) == if s in seen then seen[s] else 0
      {
        var s := RootSlot(leaves[k]);
        var rank := if s in seen then seen[s] else 0;
        nodeLinks := nodeLinks + [IndexLink(i, s, leaves[k].child, rank)];
        seen := seen[s := rank + 1];
        assert leaves[..k + 1][..k] == leaves[..k];
        k := k + 1;
      }
      assert nodeLinks == NodeIndexLinks(f, i);
      links := links + nodeLinks;
      i := i + 1;
    }
  }

  /** The link between the nodes an index link names. */
  function ToNodeLink(f: Arena, l: IndexLink): NodeLink
    requires l.root < |f| && l.leaf < |f|
  {
    NodeLink(f[l.root], l.rootSlot, f[l.leaf], l.leafSlot)
  }

  /** `resolve_links`: the index links with each position replaced by its node. */
  method ResolveLinks(f: Arena) returns (links: seq<NodeLink>)
    requires IsForest(f)
    ensures |links| == |IndexLinksUpTo(f, |f|)|
    ensures forall j :: 0 <= j < |links| ==>
      && IndexLinksUpTo(f, |f|)[j].root < |f| && IndexLinksUpTo(f, |f|)[j].leaf < |f|
      && links[j] == ToNodeLink(f, IndexLinksUpTo(f, |f|)[j])
  {
    var ix := ResolveIndexLinks(f);
    IndexLinksInRange(f, |f|);
    links := seq(|ix|, j requires 0 <= j < |ix| => ToNodeLink(f, ix[j]));
  }

  /** Every position an index link names is a node of the collection. */
  lemma {:induction false} IndexLinksInRange(f: Arena, n: nat)
    requires IsForest(f) && n <= |f|
    ensures forall j :: 0 <= j < |IndexLinksUpTo(f, n)| ==>
      IndexLinksUpTo(f, n)[j].root < n && IndexLinksUpTo(f, n)[j].leaf < |f|
  {
    if n > 0 {
      IndexLinksInRange(f, n - 1);
      var ls := NodeIndexLinks(f, n - 1);
      forall k | 0 <= k < |ls| ensures ls[k].root < n && ls[k].leaf < |f| {
        assert ls[k].leaf in ChildrenOf(f[n - 1]);
      }
    }
  }

  /** Counting over a longer prefix never gives less. */
  lemma {:induction false} CountSlotMonotone(leaves: seq<Leaf>, a: nat, b: nat, s: int)
    requires a <= b <= |leaves|
    ensures CountSlot(leaves[..a], s) <= CountSlot(leaves[..b], s)
    decreases b - a
  {
    if a < b {
      CountSlotMonotone(leaves, a, b - 1, s);
      assert leaves[..b][..b - 1] == leaves[..b - 1];
    }
  }

  /**
   * Siblings attached at the same root slot get strictly increasing
   * `leaf_slot`s in attachment order, all below the number of siblings at
   * that slot: the `leaf_slot`s at one slot are 0, 1, 2, ... in turn.
   */
  lemma LeafSlotsRankSiblings(leaves: seq<Leaf>, k1: nat, k2: nat)
    requires k1 < k2 < |leaves| && RootSlot(leaves[k1]) == RootSlot(leaves[k2])
    ensures LeafSlot(leaves, k1) < LeafSlot(leaves, k2)
    ensures LeafSlot(leaves, k2) < CountSlot(leaves, RootSlot(leaves[k2]))
  {
    LeafSlotBelowLater(leaves, k1, k2);
    LeafSlotBelowLater(leaves, k2, |leaves|);
    assert leaves[..|leaves|] == leaves;
  }

  /** The `k`-th leaf counts itself in every prefix longer than `k`. */
  lemma LeafSlotBelowLater(leaves: seq<Leaf>, k: nat, b: nat)
    requires k < b <= |leaves|
    ensures LeafSlot(leaves, k) < CountSlot(leaves[..b], RootSlot(leaves[k]))
  {
    var s := RootSlot(leaves[k]);
    assert leaves[..k + 1][..k] == leaves[..k];
    assert CountSlot(leaves[..k + 1], s) == CountSlot(leaves[..k], s) + 1;
    CountSlotMonotone(leaves, k + 1, b, s);
  }

  /** Node by node: no link of a later node comes before a link of an earlier one. */
  lemma {:induction false} IndexLinksInCollectionOrder(f: Arena, n: nat)
    requires n <= |f|
    ensures forall j :: 0 <= j < |IndexLinksUpTo(f, n)| ==> IndexLinksUpTo(f, n)[j].root < n
    ensures forall j1, j2 :: 0 <= j1 < j2 < |IndexLinksUpTo(f, n)| ==>
      IndexLinksUpTo(f, n)[j1].root <= IndexLinksUpTo(f, n)[j2].root
  {
    if n > 0 {
      IndexLinksInCollectionOrder(f, n - 1);
    }
  }

  /** Some link of `ls` goes from `i` to `c`. */
  ghost predicate LinksPair(ls: seq<IndexLink>, i: nat, c: nat) {
    exists j :: 0 <= j < |ls| && ls[j].root == i && ls[j].leaf == c
  }

  /** A pair is linked through `a + b` exactly when it is linked through `a` or through `b`. */
  lemma LinksPairConcat(a: seq<IndexLink>, b: seq<IndexLink>, i: nat, c: nat)
    ensures LinksPair(a + b, i, c) <==> LinksPair(a, i, c) || LinksPair(b, i, c)
  {
    if LinksPair(a + b, i, c) {
      var j :| 0 <= j < |a + b| && (a + b)[j].root == i && (a + b)[j].leaf == c;
      if j < |a| {
        assert a[j] == (a + b)[j];
      } else {
        assert b[j - |a|] == (a + b)[j];
      }
    }
    if LinksPair(a, i, c) {
      var j :| 0 <= j < |a| && a[j].root == i && a[j].leaf == c;
      assert (a + b)[j] == a[j];
    }
    if LinksPair(b, i, c) {
      var j :| 0 <= j < |b| && b[j].root == i && b[j].leaf == c;
      assert (a + b)[|a| + j] == b[j];
    }
  }

  /** The links of node `i` go from `i` to exactly its children. */
  lemma NodeLinksPairs(f: Arena, i: nat, r: nat, c: nat)
    requires i < |f|
    ensures LinksPair(NodeIndexLinks(f, i), r, c) <==> r == i && c in ChildrenOf(f[i])
  {
    var ls := NodeIndexLinks(f, i);
    if LinksPair(ls, r, c) {
      var j :| 0 <= j < |ls| && ls[j].root == r && ls[j].leaf == c;
      assert ChildrenOf(f[i])[j] == c;
    }
    if r == i && c in ChildrenOf(f[i]) {
      var k :| 0 <= k < |ChildrenOf(f[i])| && ChildrenOf(f[i])[k] == c;
      assert ls[k].root == i && ls[k].leaf == c;
    }
  }

  /**
   * The links name exactly the parent/child pairs of the collection: node
   * `c` is a child of node `i` if and only if some link goes from `i` to `c`.
   */
  lemma {:induction false} IndexLinksAreTheEdges(f: Arena, n: nat, i: nat, c: nat)
    requires n <= |f| && i < n
    ensures c in ChildrenOf(f[i]) <==>
      exists j :: 0 <= j < |IndexLinksUpTo(f, n)| &&
        IndexLinksUpTo(f, n)[j].root == i && IndexLinksUpTo(f, n)[j].leaf == c
  {
    var prev := IndexLinksUpTo(f, n - 1);
    var ls := NodeIndexLinks(f, n - 1);
    assert IndexLinksUpTo(f, n) == prev + ls;
    LinksPairConcat(prev, ls, i, c);
    NodeLinksPairs(f, n - 1, i, c);
    if i < n - 1 {
      IndexLinksAreTheEdges(f, n - 1, i, c);
      if LinksPair(prev, i, c) {
        var j :| 0 <= j < |prev| && prev[j].root == i && prev[j].leaf == c;
        assert IndexLinksUpTo(f, n - 1)[j].root == i && IndexLinksUpTo(f, n - 1)[j].leaf == c;
      }
      if c in ChildrenOf(f[i]) {
        var j :| 0 <= j < |prev| && prev[j].root == i && prev[j].leaf == c;
        assert LinksPair(prev, i, c);
      }
    } else {
      IndexLinksInCollectionOrder(f, n - 1);
      assert !LinksPair(prev, i, c);
    }
    assert c in ChildrenOf(f[i]) <==> LinksPair(IndexLinksUpTo(f, n), i, c);
  }
}

=== FILE: records.dfy ===
/**
 * The dict records of nodes. A node record names its parent and children
 * by uuid rather than nesting them, so reading one back gives the node
 * without links plus the leaves it lists, still as uuids.
 */
module Records {
  import opened Wrappers
  import opened Values
  import Snippets
  import opened Forest

  /** The keys of a node record, in the order `to_dict` writes them. */
  const NodeKeys: seq<string> := ["uuid", "snippet", "comment", "root", "leaves", "ref_info"]

  /** One `[child_uuid, slot]` pair of a node record. */
  function LeafToValue(f: Arena, l: Leaf): Value
    requires l.child < |f|
  {
    List([Str(f[l.child].uuid), FromOptInt(l.slot)])
  }

  /** The `root` entry of node `i`'s record: the parent's uuid, or null. */
  function RootToValue(f: Arena, i: nat): (v: Value)
    requires Closed(f) && i < |f|
    ensures v.Null? <==> f[i].root.None?
    ensures v.Null? || v.Str?
  {
    if f[i].root.Some? then Str(f[f[i].root.value].uuid) else Null
  }

  /** The `leaves` entry of node `i`'s record, in attachment order. */
  function LeavesToValue(f: Arena, i: nat): (v: Value)
    requires Closed(f) && i < |f|
    ensures v.List? && |v.items| == |f[i].leaves|
    ensures forall k :: 0 <= k < |f[i].leaves| ==>
      f[i].leaves[k].child < |f| && v.items[k] == LeafToValue(f, f[i].leaves[k])
  {
    var n := f[i];
    assert forall k :: 0 <= k < |n.leaves| ==> n.leaves[k].child in ChildrenOf(n);
    List(seq(|n.leaves|, k requires 0 <= k < |n.leaves| => LeafToValue(f, n.leaves[k])))
  }

  /** `Node.to_dict` for node `i` of the collection. */
  function NodeToDict(f: Arena, i: nat): (d: Value)
    requires Closed(f) && i < |f|
    ensures d.Dict? && KeysOf(d.entries) == NodeKeys
  {
    var n := f[i];
    Dict([
      ("uuid", Str(n.uuid)),
      ("snippet", Snippets.ToDict(n.snippet)),
      ("comment", FromOptStr(n.comment)),
      ("root", RootToValue(f, i)),
      ("leaves", LeavesToValue(f, i)),
      ("ref_info", n.refInfo)
    ])
  }

  /** One `[child_uuid, slot]` pair read back. */
  function LeafFromValue(v: Value): (r: Result<(string, Option<int>), string>)
    ensures r.Success? ==> v == List([Str(r.value.0), FromOptInt(r.value.1)])
  {
    if v.List? && |v.items| == 2 && v.items[0].Str? then
      var slot :- OptInt(v.items[1]);
      Success((v.items[0].s, slot))
    else Failure("a leaf should be a [uuid, slot] pair")
  }

  /** The `leaves` list of a node record read back, in order. */
  function LeavesFromValue(items: seq<Value>): (r: Result<seq<(string, Option<int>)>, string>)
    ensures r.Success? ==> |r.value| == |items|
    ensures r.Success? ==> forall k :: 0 <= k < |items| ==>
      items[k] == List([Str(r.value[k].0), FromOptInt(r.value[k].1)])
  {
    if items == [] then Success([])
    else
      var first :- LeafFromValue(items[0]);
      var rest :- LeavesFromValue(items[1..]);
      Success([first] + rest)
  }

  /** The fields of a node record that belong to the node alone. */
  function OwnFieldsFromDict(e: seq<(string, Value)>): (r: Result<(string, Snippets.Snippet, Option<string>, Value), string>)
    ensures r.Success? ==> Lookup(e, "uuid") == Some(Str(r.value.0))
    ensures r.Success? ==> HasKey(e, "snippet") && Snippets.FromDict(Lookup(e, "snippet").value) == Success(r.value.1)
    ensures r.Success? ==> Lookup(e, "comment") == Some(FromOptStr(r.value.2))
    ensures r.Success? ==> Lookup(e, "ref_info") == Some(r.value.3)
  {
    var uuid :- StrField(e, "uuid");
    var snippet :- Field(e, "snippet");
    var snippet :- Snippets.FromDict(snippet);
    var comment :- OptStrField(e, "comment");
    var refInfo :- Field(e, "ref_info");
    Success((uuid, snippet, comment, refInfo))
  }

  /** The link fields of a node record: `root` a uuid or null, `leaves` a list of pairs. */
  function LinkFieldsFromDict(e: seq<(string, Value)>): Result<seq<(string, Option<int>)>, string> {
    var root :- Field(e, "root");
    var leaves :- Field(e, "leaves");
    if !(root.Null? || root.Str?) then Failure("root should be a uuid or null")
    else if !leaves.List? then Failure("leaves should be a list")
    else LeavesFromValue(leaves.items)
  }

  /**
   * `Node.from_dict`: the node itself, with no links yet, and the leaves
   * its record lists, still as uuids. Every key must be present; `root`
   * must be null or a uuid and `leaves` a list of pairs.
   */
  function NodeFromDict(d: Value): (r: Result<(Node, seq<(string, Option<int>)>), string>)
    ensures !d.Dict? ==> r.Failure?
    ensures r.Success? ==> r.value.0.root.None? && r.value.0.leaves == []
    ensures r.Success? ==>
      d.Dict? && OwnFieldsFromDict(d.entries) == Success((r.value.0.uuid, r.value.0.snippet, r.value.0.comment, r.value.0.refInfo))
    ensures r.Success? ==> LinkFieldsFromDict(d.entries) == Success(r.value.1)
  {
    if !d.Dict? then Failure("node record should be a dict")
    else
      var (uuid, snippet, comment, refInfo) :- OwnFieldsFromDict(d.entries);
      var pending :- LinkFieldsFromDict(d.entries);
      Success((Node(uuid, snippet, comment, None, [], refInfo), pending))
  }

  /** The leaves of node `i` as its record lists them: child uuid and slot. */
  function PendingLeaves(f: Arena, i: nat): (ps: seq<(string, Option<int>)>)
    requires Closed(f) && i < |f|
    ensures |ps| == |f[i].leaves|
  {
    var n := f[i];
    assert forall k :: 0 <= k < |n.leaves| ==> n.leaves[k].child in ChildrenOf(n);
    seq(|n.leaves|, k requires 0 <= k < |n.leaves| => (f[n.leaves[k].child].uuid, n.leaves[k].slot))
  }

  /** Where each field of node `i` sits in its record. */
  lemma NodeToDictLookups(f: Arena, i: nat)
    requires Closed(f) && i < |f|
    ensures var e := NodeToDict(f, i).entries;
      && Lookup(e, "uuid") == Some(Str(f[i].uuid))
      && Lookup(e, "snippet") == Some(Snippets.ToDict(f[i].snippet))
      && Lookup(e, "comment") == Some(FromOptStr(f[i].comment))
      && Lookup(e, "root") == Some(RootToValue(f, i))
      && Lookup(e, "leaves") == Some(LeavesToValue(f, i))
      && Lookup(e, "ref_info") == Some(f[i].refInfo)
  {
    var e := NodeToDict(f, i).entries;
    assert UniqueKeys(e) by {
      assert KeysOf(e) == NodeKeys;
    }
    LookupUnique(e, 0);
    LookupUnique(e, 1);
    LookupUnique(e, 2);
    LookupUnique(e, 3);
    LookupUnique(e, 4);
    LookupUnique(e, 5);
  }

  /**
   * `Node.from_dict(n.to_dict())` gives back the node's own fields, with no
   * links, and the leaves its record lists, in attachment order.
   */
  lemma NodeFromDictToDict(f: Arena, i: nat)
    requires Closed(f) && i < |f|
    ensures NodeFromDict(NodeToDict(f, i)) == Success((f[i].(root := None, leaves := []), PendingLeaves(f, i)))
  {
    OwnFieldsRoundTrip(f, i);
    LinkFieldsRoundTrip(f, i);
  }

  /** The node's own fields read back from its record. */
  lemma OwnFieldsRoundTrip(f: Arena, i: nat)
    requires Closed(f) && i < |f|
    ensures OwnFieldsFromDict(NodeToDict(f, i).entries) == Success((f[i].uuid, f[i].snippet, f[i].comment, f[i].refInfo))
  {
    NodeToDictLookups(f, i);
    Snippets.FromDictToDict(f[i].snippet);
    OptStrRoundTrip(f[i].comment);
  }

  /** The leaves read back from a node's record. */
  lemma LinkFieldsRoundTrip(f: Arena, i: nat)
    requires Closed(f) && i < |f|
    ensures LinkFieldsFromDict(NodeToDict(f, i).entries) == Success(PendingLeaves(f, i))
  {
    var e := NodeToDict(f, i).entries;
    NodeToDictLookups(f, i);
    var items := LeavesToValue(f, i).items;
    LeavesRoundTrip(f, i, 0);
    assert items[0..] == items;
    assert PendingLeaves(f, i)[0..] == PendingLeaves(f, i);
    LinkFieldsAre(e, RootToValue(f, i), LeavesToValue(f, i));
  }

  /** The link fields of a record with a well-shaped `root` and `leaves`. */
  lemma LinkFieldsAre(e: seq<(string, Value)>, root: Value, leaves: Value)
    requires Lookup(e, "root") == Some(root) && (root.Null? || root.Str?)
    requires Lookup(e, "leaves") == Some(leaves) && leaves.List?
    ensures LinkFieldsFromDict(e) == LeavesFromValue(leaves.items)
  {
  }

  /** Reading back the leaves from position `k` on gives the pending leaves from `k` on. */
  lemma {:induction false} LeavesRoundTrip(f: Arena, i: nat, k: nat)
    requires Closed(f) && i < |f| && k <= |f[i].leaves|
    ensures var items := LeavesToValue(f, i).items;
      LeavesFromValue(items[k..]) == Success(PendingLeaves(f, i)[k..])
    decreases |f[i].leaves| - k
  {
    var items := LeavesToValue(f, i).items;
    if k < |items| {
      var l := f[i].leaves[k];
      LeavesRoundTrip(f, i, k + 1);
      assert items[k..][1..] == items[k + 1..];
      assert items[k..][0] == items[k];
      OptIntRoundTrip(l.slot);
      assert LeafFromValue(items[k]) == Success((f[l.child].uuid, l.slot));
      assert PendingLeaves(f, i)[k] == (f[l.child].uuid, l.slot);
      assert PendingLeaves(f, i)[k..] == [PendingLeaves(f, i)[k]] + PendingLeaves(f, i)[k + 1..];
    } else {
      assert items[k..] == [];
      assert PendingLeaves(f, i)[k..] == [];
    }
  }

  /** A record with the six node keys repeats none of them. */
  lemma NodeKeysUnique(e: seq<(string, Value)>)
    requires KeysOf(e) == NodeKeys
    ensures UniqueKeys(e)
  {
    forall a, b | 0 <= a < b < |e| ensures e[a].0 != e[b].0 {
      assert e[a].0 == NodeKeys[a] && e[b].0 == NodeKeys[b];
    }
  }

  /** A snippet record holding no key but the six snippet keys. */
  ghost predicate OnlySnippetKeys(v: Value) {
    v.Dict? && forall k :: HasKey(v.entries, k) ==> k in Snippets.SnippetKeys
  }

  /**
   * Python's `==` between two node records: the same keys, the same value
   * under each key, and the nested snippet records compared the same way,
   * regardless of key order.
   */
  ghost predicate SameNodeRecord(a: seq<(string, Value)>, b: seq<(string, Value)>) {
    && (forall k :: HasKey(a, k) <==> HasKey(b, k))
    && (forall k :: HasKey(a, k) && k != "snippet" ==> Lookup(a, k) == Lookup(b, k))
    && HasKey(a, "snippet") && HasKey(b, "snippet")
    && Lookup(a, "snippet").value.Dict? && Lookup(b, "snippet").value.Dict?
    && SameDict(Lookup(a, "snippet").value.entries, Lookup(b, "snippet").value.entries)
  }

  /** The keys of a node record, spelled out. */
  lemma NodeKeyCases(k: string)
    requires k in NodeKeys
    ensures k == "uuid" || k == "snippet" || k == "comment" || k == "root" || k == "leaves" || k == "ref_info"
  {
  }

  /**
   * `Node.from_dict(d).to_dict() == d` under Python's dict equality, for
   * the record of a node without links (`root` null, `leaves` empty) that
   * holds only node keys and whose snippet record holds only snippet keys,
   * in any order. The node read back may sit at any position `i` of any
   * closed arena.
   */
  lemma NodeToDictFromDict(d: Value, f: Arena, i: nat)
    requires d.Dict? && forall k :: HasKey(d.entries, k) ==> k in NodeKeys
    requires Lookup(d.entries, "root") == Some(Null) && Lookup(d.entries, "leaves") == Some(List([]))
    requires Lookup(d.entries, "snippet").Some? && OnlySnippetKeys(Lookup(d.entries, "snippet").value)
    requires NodeFromDict(d).Success?
    requires Closed(f) && i < |f| && f[i] == NodeFromDict(d).value.0
    ensures NodeFromDict(d).value.1 == []
    ensures SameNodeRecord(NodeToDict(f, i).entries, d.entries)
  {
    var e := NodeToDict(f, i).entries;
    var de := d.entries;
    var sd := Lookup(de, "snippet").value;
    NodeToDictLookups(f, i);
    LinkFieldsAre(de, Null, List([]));
    assert RootToValue(f, i) == Null && LeavesToValue(f, i) == List([]);
    Snippets.ToDictFromDict(sd);
    assert KeysOf(e) == NodeKeys;
    forall k ensures HasKey(e, k) <==> HasKey(de, k) {
      if k in NodeKeys {
        NodeKeyCases(k);
      }
    }
    forall k | HasKey(e, k) && k != "snippet" ensures Lookup(e, k) == Lookup(de, k) {
      NodeKeyCases(k);
    }
  }

  /**
   * A node without links reads back from its record as itself, with no
   * pending leaves, and its record meets the assumptions of
   * `NodeToDictFromDict`.
   */
  lemma UnlinkedRecordRoundTrips(f: Arena, i: nat)
    requires Closed(f) && i < |f| && f[i].root.None? && f[i].leaves == []
    ensures NodeFromDict(NodeToDict(f, i)) == Success((f[i], []))
    ensures var d := NodeToDict(f, i);
      && d.Dict? && (forall k :: HasKey(d.entries, k) ==> k in NodeKeys)
      && Lookup(d.entries, "root") == Some(Null) && Lookup(d.entries, "leaves") == Some(List([]))
      && Lookup(d.entries, "snippet").Some? && OnlySnippetKeys(Lookup(d.entries, "snippet").value)
      && NodeFromDict(d).Success? && f[i] == NodeFromDict(d).value.0
  {
    var d := NodeToDict(f, i);
    NodeToDictLookups(f, i);
    NodeFromDictToDict(f, i);
    assert PendingLeaves(f, i) == [];
    assert RootToValue(f, i) == Null && LeavesToValue(f, i) == List([]);
    assert f[i] == NodeFromDict(d).value.0;
    assert KeysOf(d.entries) == NodeKeys;
    assert KeysOf(Snippets.ToDict(f[i].snippet).entries) == Snippets.SnippetKeys;
  }

  /**
   * The same round trip entry for entry: a record whose keys, and whose
   * snippet record's keys, come in the order `to_dict` writes them is
   * reproduced exactly.
   */
  lemma NodeToDictFromDictInOrder(d: Value, f: Arena, i: nat)
    requires d.Dict? && KeysOf(d.entries) == NodeKeys
    requires d.entries[3].1 == Null && d.entries[4].1 == List([])
    requires d.entries[1].1.Dict? && KeysOf(d.entries[1].1.entries) == Snippets.SnippetKeys
    requires NodeFromDict(d).Success?
    requires Closed(f) && i < |f| && f[i] == NodeFromDict(d).value.0
    ensures NodeFromDict(d).value.1 == []
    ensures NodeToDict(f, i) == d
  {
    var e := d.entries;
    var n := NodeFromDict(d).value.0;
    NodeKeyAt(e, 0);
    NodeKeyAt(e, 1);
    NodeKeyAt(e, 2);
    NodeKeyAt(e, 3);
    NodeKeyAt(e, 4);
    NodeKeyAt(e, 5);
    LinkFieldsAre(e, Null, List([]));
    Snippets.ToDictFromDictInOrder(e[1].1);
    OptStrRoundTrip(n.comment);
    UnlinkedNodeRecord(e, f, i);
  }

  /** A record holding exactly the fields of a node without links, in order, is that node's record. */
  lemma UnlinkedNodeRecord(e: seq<(string, Value)>, f: Arena, i: nat)
    requires Closed(f) && i < |f| && f[i].root.None? && f[i].leaves == []
    requires KeysOf(e) == NodeKeys
    requires e[0].1 == Str(f[i].uuid) && e[1].1 == Snippets.ToDict(f[i].snippet)
    requires e[2].1 == FromOptStr(f[i].comment) && e[3].1 == Null
    requires e[4].1 == List([]) && e[5].1 == f[i].refInfo
    ensures NodeToDict(f, i) == Dict(e)
  {
    var e' := NodeToDict(f, i).entries;
    assert LeavesToValue(f, i) == List([]);
    forall j | 0 <= j < 6 ensures e'[j] == e[j] {
      assert e[j].0 == NodeKeys[j];
    }
  }

  /** In a node record, the `j`-th key finds the `j`-th value. */
  lemma NodeKeyAt(e: seq<(string, Value)>, j: nat)
    requires KeysOf(e) == NodeKeys && j < 6
    ensures Lookup(e, NodeKeys[j]) == Some(e[j].1)
  {
    NodeKeysUnique(e);
    LookupUnique(e, j);
  }
}

=== FILE: snippets.dfy ===
/**
 * `Snippet`: a text fragment with its provenance, and its dict record
 * `{name, content, lang, line_start, path, url}`.
 */
module Snippets {
  import opened Wrappers
  import opened Values

  datatype Snippet = Snippet(
    name: string,
    content: string,
    lang: Option<string>,
    lineStart: Option<int>,
    path: Option<string>,
    url: Option<string>)

  /** Number of line breaks in `s`. */
  function CountBreaks(s: string): (n: nat)
    ensures n <= |s|
  {
    if s == [] then 0 else (if s[0] == '\n' then 1 else 0) + CountBreaks(s[1..])
  }

  /** `n_lines`: line breaks plus one, so never less than one. */
  function NLines(s: Snippet): (n: nat)
    ensures 1 <= n <= |s.content| + 1
  {
    CountBreaks(s.content) + 1
  }

  /** The six keys of the record, in the order `to_dict` writes them. */
  const SnippetKeys: seq<string> := ["name", "content", "lang", "line_start", "path", "url"]

  function ToDict(s: Snippet): (d: Value)
    ensures d.Dict? && KeysOf(d.entries) == SnippetKeys
  {
    Dict([
      ("name", Str(s.name)),
      ("content", Str(s.content)),
      ("lang", FromOptStr(s.lang)),
      ("line_start", FromOptInt(s.lineStart)),
      ("path", FromOptStr(s.path)),
      ("url", FromOptStr(s.url))
    ])
  }

  /**
   * `from_dict`: every key must be present (null for an absent optional
   * field); keys other than the six are ignored.
   */
  function FromDict(d: Value): (r: Result<Snippet, string>)
    ensures !d.Dict? ==> r.Failure?
    ensures r.Success? ==> Lookup(d.entries, "name") == Some(Str(r.value.name))
    ensures r.Success? ==> Lookup(d.entries, "content") == Some(Str(r.value.content))
    ensures r.Success? ==> Lookup(d.entries, "lang") == Some(FromOptStr(r.value.lang))
    ensures r.Success? ==> Lookup(d.entries, "line_start") == Some(FromOptInt(r.value.lineStart))
    ensures r.Success? ==> Lookup(d.entries, "path") == Some(FromOptStr(r.value.path))
    ensures r.Success? ==> Lookup(d.entries, "url") == Some(FromOptStr(r.value.url))
  {
    if !d.Dict? then Failure("snippet record should be a dict")
    else
      var name :- StrField(d.entries, "name");
      var content :- StrField(d.entries, "content");
      var lang :- OptStrField(d.entries, "lang");
      var lineStart :- OptIntField(d.entries, "line_start");
      var path :- OptStrField(d.entries, "path");
      var url :- OptStrField(d.entries, "url");
      Success(Snippet(name, content, lang, lineStart, path, url))
  }

  /** A record with the six snippet keys repeats none of them. */
  lemma SnippetKeysUnique(e: seq<(string, Value)>)
    requires KeysOf(e) == SnippetKeys
    ensures UniqueKeys(e)
  {
    forall a, b | 0 <= a < b < |e| ensures e[a].0 != e[b].0 {
      assert e[a].0 == SnippetKeys[a] && e[b].0 == SnippetKeys[b];
    }
  }

  /** Where each field of `s` sits in its record. */
  lemma ToDictLookups(s: Snippet)
    ensures Lookup(ToDict(s).entries, "name") == Some(Str(s.name))
    ensures Lookup(ToDict(s).entries, "content") == Some(Str(s.content))
    ensures Lookup(ToDict(s).entries, "lang") == Some(FromOptStr(s.lang))
    ensures Lookup(ToDict(s).entries, "line_start") == Some(FromOptInt(s.lineStart))
    ensures Lookup(ToDict(s).entries, "path") == Some(FromOptStr(s.path))
    ensures Lookup(ToDict(s).entries, "url") == Some(FromOptStr(s.url))
  {
    var e := ToDict(s).entries;
    assert UniqueKeys(e) by {
      assert KeysOf(e) == SnippetKeys;
    }
    LookupUnique(e, 0);
    LookupUnique(e, 1);
    LookupUnique(e, 2);
    LookupUnique(e, 3);
    LookupUnique(e, 4);
    LookupUnique(e, 5);
  }

  /** `Snippet.from_dict(s.to_dict())` gives back `s`, `None` fields included. */
  lemma FromDictToDict(s: Snippet)
    ensures FromDict(ToDict(s)) == Success(s)
  {
    ToDictLookups(s);
    OptStrRoundTrip(s.lang);
    OptIntRoundTrip(s.lineStart);
    OptStrRoundTrip(s.path);
    OptStrRoundTrip(s.url);
  }

  /** The keys of a snippet record, spelled out. */
  lemma KeyCases(k: string)
    requires k in SnippetKeys
    ensures k == "name" || k == "content" || k == "lang" || k == "line_start" || k == "path" || k == "url"
  {
  }

  /** A decoded record and the record it re-encodes to agree on each of the six keys. */
  lemma FieldAgrees(d: Value, k: string)
    requires d.Dict? && FromDict(d).Success?
    requires k == "name" || k == "content" || k == "lang" || k == "line_start" || k == "path" || k == "url"
    ensures HasKey(d.entries, k)
    ensures Lookup(ToDict(FromDict(d).value).entries, k) == Lookup(d.entries, k)
  {
    ToDictLookups(FromDict(d).value);
  }

  /**
   * `Snippet.from_dict(d).to_dict() == d` for every record `d` that holds
   * exactly the six keys.
   */
  lemma ToDictFromDict(d: Value)
    requires d.Dict?
    requires forall k :: HasKey(d.entries, k) ==> k in SnippetKeys
    requires FromDict(d).Success?
    ensures SameDict(ToDict(FromDict(d).value).entries, d.entries)
  {
    var e := ToDict(FromDict(d).value).entries;
    assert KeysOf(e) == SnippetKeys;
    forall k | HasKey(d.entries, k) ensures HasKey(e, k) {
      assert k in SnippetKeys;
    }
    forall k | HasKey(e, k) ensures HasKey(d.entries, k) && Lookup(e, k) == Lookup(d.entries, k) {
      KeyCases(k);
      FieldAgrees(d, k);
    }
  }

  /**
   * A record that lists the six keys in the order `to_dict` writes them is
   * re-encoded entry for entry.
   */
  lemma ToDictFromDictInOrder(d: Value)
    requires d.Dict? && KeysOf(d.entries) == SnippetKeys
    requires FromDict(d).Success?
    ensures ToDict(FromDict(d).value) == d
  {
    var e := ToDict(FromDict(d).value).entries;
    forall i | 0 <= i < 6 ensures e[i] == d.entries[i] {
      EntryAgrees(d, i);
    }
  }

  /** The `i`-th entry of such a record survives the round trip. */
  lemma EntryAgrees(d: Value, i: nat)
    requires d.Dict? && KeysOf(d.entries) == SnippetKeys
    requires FromDict(d).Success? && i < 6
    ensures ToDict(FromDict(d).value).entries[i] == d.entries[i]
  {
    var e := ToDict(FromDict(d).value).entries;
    var k := SnippetKeys[i];
    SnippetKeysUnique(d.entries);
    LookupUnique(d.entries, i);
    KeyCases(k);
    FieldAgrees(d, k);
    SnippetKeysUnique(e);
    LookupUnique(e, i);
  }
}

=== FILE: values.dfy ===
/**
 * JSON-like values: what `to_dict` produces and `from_dict` / the config
 * constructors consume. A dict is an association list so that the order in
 * which Python iterates over `dict.items()` is part of the model; Python's
 * order-insensitive dict equality is `SameDict`.
 */
module Values {
  import opened Wrappers

  datatype Value =
    | Null
    | Bool(b: bool)
    | Int(i: int)
    | Str(s: string)
    | List(items: seq<Value>)
    | Dict(entries: seq<(string, Value)>)

  /** The keys of an association list, in insertion order. */
  function KeysOf(entries: seq<(string, Value)>): (ks: seq<string>)
    ensures |ks| == |entries|
    ensures forall i :: 0 <= i < |entries| ==> ks[i] == entries[i].0
  {
    if entries == [] then [] else [entries[0].0] + KeysOf(entries[1..])
  }

  /** `k in d` for a Python dict. */
  predicate HasKey(entries: seq<(string, Value)>, k: string) {
    k in KeysOf(entries)
  }

  /** `d[k]`: the value stored under the first occurrence of `k`. */
  function Lookup(entries: seq<(string, Value)>, k: string): (r: Option<Value>)
    ensures r.Some? <==> HasKey(entries, k)
    ensures r.Some? ==> (k, r.value) in entries
  {
    if entries == [] then None
    else if entries[0].0 == k then Some(entries[0].1)
    else Lookup(entries[1..], k)
  }

  /** In a dict without repeated keys, the entry `(k, v)` is what `d[k]` finds. */
  lemma LookupUnique(entries: seq<(string, Value)>, i: nat)
    requires UniqueKeys(entries) && i < |entries|
    ensures Lookup(entries, entries[i].0) == Some(entries[i].1)
  {
    if i > 0 {
      assert entries[0].0 != entries[i].0;
      assert entries[1..][i - 1] == entries[i];
      LookupUnique(entries[1..], i - 1);
    }
  }

  /** `d[k]` as a result: the value under `k`, or a missing-key error. */
  function Field(d: seq<(string, Value)>, k: string): (r: Result<Value, string>)
    ensures r.Success? <==> HasKey(d, k)
    ensures r.Success? ==> Lookup(d, k) == Some(r.value)
  {
    match Lookup(d, k)
    case Some(v) => Success(v)
    case None => Failure("missing key")
  }

  /** The value under `k`, which must be a string. */
  function StrField(d: seq<(string, Value)>, k: string): (r: Result<string, string>)
    ensures r.Success? <==> HasKey(d, k) && Lookup(d, k).value.Str?
    ensures r.Success? ==> Lookup(d, k) == Some(Str(r.value))
  {
    var v :- Field(d, k);
    if v.Str? then Success(v.s) else Failure("expected a string")
  }

  /** The value under `k`, which must be a string or null. */
  function OptStrField(d: seq<(string, Value)>, k: string): (r: Result<Option<string>, string>)
    ensures r.Success? ==> Lookup(d, k) == Some(FromOptStr(r.value))
  {
    var v :- Field(d, k);
    OptStr(v)
  }

  /** The value under `k`, which must be an integer or null. */
  function OptIntField(d: seq<(string, Value)>, k: string): (r: Result<Option<int>, string>)
    ensures r.Success? ==> Lookup(d, k) == Some(FromOptInt(r.value))
  {
    var v :- Field(d, k);
    OptInt(v)
  }

  /** A well-formed dict never repeats a key. */
  predicate UniqueKeys(entries: seq<(string, Value)>) {
    forall i, j :: 0 <= i < j < |entries| ==> entries[i].0 != entries[j].0
  }

  /** What a JSON document can hold: every dict, however deeply nested, repeats no key. */
  predicate WellFormed(v: Value) {
    match v
    case List(items) => forall i :: 0 <= i < |items| ==> WellFormed(items[i])
    case Dict(entries) => UniqueKeys(entries) && forall i :: 0 <= i < |entries| ==> WellFormed(entries[i].1)
    case _ => true
  }

  /** Python's `==` on two dicts: the same keys, the same value under each key. */
  ghost predicate SameDict(a: seq<(string, Value)>, b: seq<(string, Value)>) {
    && (forall k :: HasKey(a, k) <==> HasKey(b, k))
    && (forall k :: HasKey(a, k) ==> Lookup(a, k) == Lookup(b, k))
  }

  /** A value is a string or `None`. */
  function OptStr(v: Value): (r: Result<Option<string>, string>)
    ensures r.Success? <==> v.Null? || v.Str?
    ensures r.Success? ==> v == FromOptStr(r.value)
  {
    match v
    case Null => Success(None)
    case Str(s) => Success(Some(s))
    case _ => Failure("expected a string or null")
  }

  /** `OptStr` reads back what `FromOptStr` writes. */
  lemma OptStrRoundTrip(o: Option<string>)
    ensures OptStr(FromOptStr(o)) == Success(o)
  {
  }

  /** The inverse of `OptStr`. */
  function FromOptStr(o: Option<string>): (v: Value)
    ensures v.Null? <==> o.None?
  {
    match o
    case None => Null
    case Some(s) => Str(s)
  }

  /** A value is an integer or `None`. */
  function OptInt(v: Value): (r: Result<Option<int>, string>)
    ensures r.Success? <==> v.Null? || v.Int?
    ensures r.Success? ==> v == FromOptInt(r.value)
  {
    match v
    case Null => Success(None)
    case Int(i) => Success(Some(i))
    case _ => Failure("expected an integer or null")
  }

  /** `OptInt` reads back what `FromOptInt` writes. */
  lemma OptIntRoundTrip(o: Option<int>)
    ensures OptInt(FromOptInt(o)) == Success(o)
  {
  }

  /** The inverse of `OptInt`. */
  function FromOptInt(o: Option<int>): (v: Value)
    ensures v.Null? <==> o.None?
  {
    match o
    case None => Null
    case Some(i) => Int(i)
  }

}

=== FILE: wrappers.dfy ===
/** Failure-compatible wrappers shared by every module of the model. */
module Wrappers {

  /** An optional value; `None` stands for Python's `None`. */
  datatype Option<+T> = None | Some(value: T) {

    /** The wrapped value, or `default` when there is none. */
    function GetOr(default: T): T {
      match this
      case Some(v) => v
      case None => default
    }
  }

  /** The outcome of an operation that may raise. */
  datatype Result<+R, +E> = Success(value: R) | Failure(error: E) {

    predicate IsFailure() {
      Failure?
    }

    function PropagateFailure<U>(): Result<U, E>
      requires Failure?
    {
      Failure(error)
    }

    function Extract(): R
      requires Success?
    {
      value
    }
  }
}
